=== FILE: README.md ===
# Pin/board social backend: relationship and engagement model

A Dafny model of the core of a media-bookmarking backend: users create
pins, save them into boards, follow each other, and like and comment on
content. The model covers the three controllers (pins, users, boards) over
the four record schemas (user, pin, board, comment). It proves what each
handler does to the store. It also proves which store-wide invariants the
handlers keep:

- follower/following pairing;
- duplicate-free follow lists;
- public boards being among the owner's boards;
- unique emails and usernames;
- schema validity of every record.

The store is one immutable `State` with a map per record kind, keyed by
typed opaque ids (`UserId`, `PinId`, `BoardId`, `CommentId`). Ids are only
ever compared for equality, which is what the handlers' `toString()`
comparisons amount to. Each handler that writes is a pure function to a
`Response`: the state after the request plus either an `Ok` reply or an
`Error`. A state comes back on the error path too, because `deleteBoard`
changes the store even when it reports 403. Read-only handlers return a
`Result`. Ids of new records are parameters, with a precondition that they
are not yet in the map.

Errors are named after the status codes the handlers set:

- `BadRequest` (400), `Unauthorized` (401), `Forbidden` (403),
  `NotFound` (404) and `Conflict` (409).
- `ValidationFailed`: the schema rejects a record, either when it is
  created or when a loaded record is written back with `save()`. The
  handlers set no status code for it.
- `NullDereference`: `deleteBoard` reads `createdBy` from the `null` that
  the store returns for an unknown id, and `getBoard` as written calls
  `toString()` on a populated `createdBy` whose user no longer exists.

Behaviour the model reproduces as the code has it:

- `updatePin` and `deletePin` do no ownership check (they never look at
  the caller).
- `deletePin` and `deleteBoard` leave dangling ids in users' and boards'
  lists.
- `replyComment` attaches the reply only to the parent comment, and never
  checks that the parent belongs to the pin.
- `updateBoard` merges fields with `||`, so `isSecret` can be set but never
  cleared. It does not touch the owner's `publicBoards`, so a board made
  secret stays on the public profile (`Invariants.SecretBoardStaysOnProfile`).
- `deleteBoard` deletes the board before checking ownership. A non-owner's
  request still deletes it and then reports 403
  (`Boards.NonOwnerDeleteStillDeletes`). For an unknown id it fails reading
  a field of `null`, so the 400 branch at
  controllers/board.controller.js:139-143 is never reached.
- Unfollow removes the caller from the target's followers at the caller's
  index. When the caller is missing there, `splice(-1, 1)` removes the last
  follower, which can break the pairing for a third user.
- A second like removes only the first occurrence of the caller. Two likes,
  and likewise two follows, give back the identical list only when the
  caller was absent at first. From a present start the membership comes
  back but the caller moves to the end (`Lists.ToggleTwiceReorders`).
- Creating a record trims its text fields, which is what `trim: true` does.
  Updates trim as well, because Mongoose runs setters on update queries.
  Updates run no validators, though, so `updatePin`/`updateBoard` can store
  out-of-bound values (`Invariants.UpdatePinStoresInvalidTitle`).
- Every `save()` re-runs the schema's validators over the whole loaded
  record, not only the changed list. Setters do not run again. The
  `XValidates` predicates of `Schema` are the validators alone. A record
  that an update left out of bounds therefore makes later likes, saves
  and comments that touch it fail with `ValidationFailed`.
- A handler that writes two or three records does so with one `save()` (or
  create) after another. When a later one fails validation, the earlier
  ones stay written. So a pin, board or comment can be stored without being
  listed on its owner or parent. A follow can also be written on the
  caller's side only, which unpairs the store
  (`Users.FollowHalfWriteUnpairs`).

## Model

| member | source | states |
|---|---|---|
| Text.TrimStart | models/pin.model.js:5-9 | the result is a suffix of the input; everything dropped is white space and the result does not start with white space |
| Text.TrimEnd | models/pin.model.js:10-14 | the result is a prefix of the input; everything dropped is white space and the result does not end with white space |
| Text.Trim | models/board.model.js:4-14 | `trim: true`: the result is an infix of the input with only white space around it, has no white space at either end, and is no longer than the input |
| Text.TrimKeepsInfix | models/board.model.js:4-14 | dropping leading and then trailing white space keeps an infix with only white space around it that starts and ends with a non-space character |
| Text.TrimOfTrimmed | models/comment.model.js:4-9 | a value with no white space at its ends is left unchanged by the trim setter, so a field `Boards.UpdateBoard` keeps by `||` stays as stored when the store holds it trimmed |
| Text.TrimIdempotent | models/pin.model.js:5-14 | trimming an already trimmed (stored) value changes nothing |
| Text.OrDefault | controllers/pin.controller.js:25-26 | `s \|\| d` on strings: the empty (or omitted) value falls back to the default, anything else is kept |
| Text.LowerChar | models/user.model.js:20 | upper-case ASCII letters map to their lower-case letter, every other character is unchanged |
| Text.Lower | models/user.model.js:20 | `lowercase: true`: same length, each character lower-cased |
| Text.LowerIdempotent | models/user.model.js:20 | a lower-cased email has no upper-case letter and lower-casing it again changes nothing |
| Text.LowerKeepsEmail | models/user.model.js:16-22 | a string matching `^\S+@\S+\.\S+$` still matches after lower-casing, so the stored email is well-formed |
| Text.IsEmail | models/user.model.js:21 | the email expression `^\S+@\S+\.\S+$`: no white space, an `@` after at least one character, and a later `.` with characters between and after |
| Text.IsWord | models/user.model.js:32 | the username expression `^[a-zA-Z0-9_]+$`: non-empty, letters, digits and underscores only |
| Options.Option.GetOr | controllers/board.controller.js:29-30 | `tags \|\| []`: an omitted array takes the default, a supplied one (even empty) is kept |
| Lists.IndexOf | controllers/pin.controller.js:258-259 | `findIndex` with id equality: -1 exactly when absent, otherwise the first position holding the id |
| Lists.SpliceOne | controllers/user.controller.js:163-165 | `splice(start, 1)`: an in-range start removes exactly that element, -1 removes the last element, an empty list or a start past the end is unchanged |
| Lists.RemoveFirst | controllers/pin.controller.js:266-268 | reference definition of "remove the first occurrence": one shorter when the id is present, unchanged when absent |
| Lists.CutFirst | controllers/pin.controller.js:259-268 | cutting out the element at a position holding x, with no x before it, is the reference "remove the first occurrence" |
| Lists.SpliceAtIndexOf | controllers/pin.controller.js:259-268 | splicing at the `findIndex` position is the reference "remove the first occurrence" |
| Lists.RemoveFirstMembers | controllers/pin.controller.js:266-268 | on a duplicate-free list, removing the first occurrence of x removes x entirely and keeps every other member |
| Lists.RemoveFirstNoDups | controllers/user.controller.js:162-166 | removing the first occurrence keeps a list duplicate-free |
| Lists.RemoveFirstOfAppended | controllers/pin.controller.js:261-268 | pushing an absent id and then removing its first occurrence gives the original list |
| Lists.AppendNoDups | controllers/user.controller.js:156-160 | pushing an absent id keeps a list duplicate-free |
| Lists.Toggle | controllers/pin.controller.js:258-271 | the like/unlike toggle appends an absent id and removes the first occurrence of a present one |
| Lists.ToggleFlips | controllers/pin.controller.js:258-271 | on a duplicate-free list the toggle flips the actor's membership, leaves everyone else's unchanged and stays duplicate-free |
| Lists.ToggleTwiceFromAbsent | controllers/pin.controller.js:258-271 | toggling an absent actor twice returns the identical list |
| Lists.ToggleTwiceMembers | controllers/pin.controller.js:258-271 | toggling twice on a duplicate-free list restores the membership from any start |
| Lists.ToggleTwiceReorders | controllers/pin.controller.js:258-271 | from a present start, two toggles move the actor to the end, so the list as such is not restored |
| Schema.NewUser | controllers/user.controller.js:30-38 | a new user has all six id lists empty, bio " " and image "default.jpg", the lower-cased email, and is schema-valid when its inputs pass the field constraints |
| Schema.DefaultsValid | models/pin.model.js:24-39 | the schema defaults satisfy the schema constraints: category "Other", file type "image/jpeg", bio within 160 |
| Schema.UserValidates | models/user.model.js:5-45 | the user validators: first name and a given surname of at least 3, a well-formed email, a password, a username of at least 3 word characters, bio at most 160 |
| Schema.PinValidates | models/pin.model.js:5-39 | the pin validators: title at most 100, description at most 500, a complete file descriptor of an allowed type, category in the enum |
| Schema.BoardValidates | models/board.model.js:4-39 | the board validators: a title of 1 to 100, description at most 500, category in the enum |
| Schema.CommentValidates | models/comment.model.js:4-9 | the comment validators: non-empty text of at most 300 |
| Pins.NewPin | controllers/pin.controller.js:24-34 | a new pin is created by the caller with the uploaded file and trimmed title and description; category "Other" when omitted and the given one otherwise; tags `[]` when omitted and the given list otherwise; empty likes, savedBy and comments |
| Pins.CreatePin | controllers/pin.controller.js:17-37 | 401 exactly when the caller has no record; success exactly when the new record passes the pin schema and the caller record passes the user schema on its `save()`, the reply being the new record; a rejected pin writes nothing; a rejected caller save leaves the pin stored but not on the caller's created pins; on success the id is appended to the caller's created pins, nothing else changing |
| Pins.FileAsWritten | controllers/pin.controller.js:27-30 | the file sub-document the handler builds keeps the type but has no id or URL, so it fails the file validators |
| Pins.CreatePinAsWrittenRejected | controllers/pin.controller.js:24-34 | with that sub-document, createPin by any known caller is a validation failure with no write |
| Pins.UpdatePin | controllers/pin.controller.js:67-87 | success exactly for a known pin, 400 otherwise with no write; title, description, category and tags are replaced wholesale, omitted ones reset to "", "", "Other", `[]`; file, creator, likes, saves and comments kept; no identity consulted |
| Pins.DeletePin | controllers/pin.controller.js:89-98 | success exactly for a known pin, 400 otherwise; only that pin is removed, and users, boards, comments and other pins are unchanged |
| Pins.BadBoard | controllers/pin.controller.js:124 | a named board is rejected when it is missing or not on the caller's boards |
| Pins.SaveAccepted | controllers/pin.controller.js:100-131 | savePin gets past its checks: a user, the pin, not yet saved, no bad board named |
| Pins.SavePin | controllers/pin.controller.js:100-140 | 401, then 400 (no pin), then 409 (already saved), then 400 (named board missing or not the caller's), each without writes; then three `save()`s in order (named board, caller, pin), success exactly when all three records pass their validators; the pin is appended to the board's pins, the caller's saved pins and (the caller) to the pin's savedBy, each write kept exactly when its save and the earlier ones passed |
| Pins.SaveTwiceConflicts | controllers/pin.controller.js:115-136 | after a successful save, saving the same pin again is a 409 that writes nothing |
| Pins.CommentTextAccepted | routes/pin.routes.js:38-42 | the route's check on comment text: present and at most 300 characters |
| Pins.NewComment | controllers/pin.controller.js:165-170 | a comment or reply records the caller, the pin and the trimmed text, image "" when omitted and the given one otherwise, with no likes or replies; for text the route accepts it passes the comment schema exactly when the text does not trim to nothing |
| Pins.CreateComment | controllers/pin.controller.js:142-180 | 400 for text the route rejects, 401, 400 for a missing pin, a validation failure for text trimming to nothing or a pin failing its validators on `save()`; success exactly otherwise, with the new comment as reply; the comment is stored whenever it passes its schema, and appended to the pin's comments exactly when the pin's save passes |
| Pins.ReplyComment | controllers/pin.controller.js:182-227 | the same checks plus 400 for a missing parent; success exactly when the reply and the parent's `save()` pass; the reply is stored whenever it passes its schema, appended only to the parent's replies when the parent's save passes, pins untouched; the parent's own pin is not consulted |
| Pins.LikePin | controllers/pin.controller.js:243-272 | 401 without a user, 400 without the pin, a validation failure with no write when the stored pin fails its validators on `save()`; success exactly otherwise; the reply is "liked" exactly when the caller was absent; the caller is appended when absent, its first occurrence removed when present, nothing else changes |
| Pins.LikeComment | controllers/pin.controller.js:274-303 | the same toggle on a comment's likes, with 400 for a missing comment and a validation failure for a comment failing its validators; success exactly otherwise |
| Pins.LikePinFlips | controllers/pin.controller.js:258-271 | on a duplicate-free likes list of a pin that passes its validators, a like flips the caller's membership, keeps everyone else's and stays duplicate-free |
| Pins.LikePinTwiceRestores | controllers/pin.controller.js:261-270 | like then unlike, starting from not liked, restores the whole state, whether or not the saves pass |
| Pins.LikePinTwiceRestoresMembers | controllers/pin.controller.js:258-271 | two likes from any start restore who likes the pin, whether or not the saves pass |
| Pins.LikeCommentFlips | controllers/pin.controller.js:289-302 | a like on a comment that passes its validators flips the caller's membership and keeps everyone else's |
| Pins.LikeCommentTwiceRestores | controllers/pin.controller.js:292-301 | like then unlike of a comment, starting from not liked, restores the whole state, whether or not the saves pass |
| Users.RegistrationAccepted | routes/user.routes.js:15-30 | the route's checks on a registration: a well-formed email, a first name of at least 3, a username of at least 3 word characters, a password of at least 6 |
| Users.SurnameAccepted | models/user.model.js:11-14 | the one schema constraint on registration the route leaves open: a given surname has at least 3 characters |
| Users.RegisterUser | controllers/user.controller.js:7-38 | 400 exactly when the route rejects the body, the lower-cased email is taken or the username is taken; a validation failure exactly for a surname under three characters; success exactly otherwise; no write on failure; on success one user is added with empty lists, the hash, the lower-cased email, the default bio " " and the default image "default.jpg" (exactly `Schema.NewUser` of the request), and passes the user schema |
| Users.RegisterKeepsUniqueKeys | controllers/user.controller.js:16-26 | registration keeps emails and usernames unique |
| Users.RegisterKeepsSocialInvariant | controllers/user.controller.js:30-38 | registration keeps the follow lists paired, duplicate-free and pointing at stored users |
| Users.FollowUser | controllers/user.controller.js:129-169 | 401, then 400, without writes; success exactly when both users pass their validators on `save()`; the caller's save comes first, so a rejected caller writes nothing and a rejected target leaves the caller's side written; follow appends each side; unfollow removes the target's first occurrence from following and the caller's first occurrence from followers, or the last follower when the caller is missing, and leaves empty followers empty; only the two users change |
| Users.WithFollowing | controllers/user.controller.js:156-163 | the caller's side of followUser: an absent target is appended to following, a present one loses its first occurrence, nothing else in the record changes |
| Users.WithFollowers | controllers/user.controller.js:159-165 | the target's side of followUser changes only the followers list, as `FollowersAfter` states |
| Users.FollowersAfter | controllers/user.controller.js:148-165 | the target's followers after followUser: the caller appended on a follow; on an unfollow the caller's first occurrence removed, or the last follower when the caller is missing, and an empty list stays empty |
| Users.PairedToggle | controllers/user.controller.js:147-166 | both sides of a follow as one toggle leave the set of user ids unchanged |
| Users.FollowIsPairedToggle | controllers/user.controller.js:147-166 | on a paired, duplicate-free store, a followUser whose two saves pass is the same toggle on both sides |
| Users.PairedToggleKeepsSocialInvariant | controllers/user.controller.js:147-166 | the paired toggle keeps the follow lists paired and duplicate-free and flips exactly the caller-target edge |
| Users.FollowKeepsSocialInvariant | controllers/user.controller.js:147-168 | for distinct users whose saves pass on a paired store, followUser keeps "B in A.following iff A in B.followers" and flips whether the caller follows the target |
| Users.PairedToggleTwice | controllers/user.controller.js:156-166 | the paired toggle applied twice from not following is the identity |
| Users.FollowTwiceRestores | controllers/user.controller.js:156-166 | follow then unfollow from not following restores the whole state, whichever saves fail |
| Users.PairedToggleTwiceGraph | controllers/user.controller.js:147-166 | the paired toggle applied twice restores the follow relation |
| Users.FollowTwiceRestoresGraph | controllers/user.controller.js:147-168 | two follows from any paired start restore who follows whom, whichever saves fail |
| Users.HalfFollowTwice | controllers/user.controller.js:156-166 | when the caller's saves pass and the target's fail, following then unfollowing from not following restores the whole state |
| Users.HalfFollowTwiceGraph | controllers/user.controller.js:156-166 | when the target's saves fail, two follows restore who follows whom on a duplicate-free following list |
| Users.FollowHalfWriteUnpairs | controllers/user.controller.js:156-166 | when the caller's save passes and the target's fails, the caller's edge flips while the target's followers stay, so a paired store stops being paired |
| Users.UnfollowUnpairedDropsLastFollower | controllers/user.controller.js:148-165 | when the caller follows the target but is missing from its followers (and both saves pass), unfollowing removes the last follower, so a third user still follows the target without being listed: the store is no longer paired |
| Users.GetCurrentUser | controllers/user.controller.js:87-106 | 404 exactly for an unknown caller, success otherwise; the caller's record without the password (id, names, email, username, bio, image, pin lists, social lists, both board-id lists, each equal to the stored field), with all boards marked as the expanded list |
| Users.GetProfile | controllers/user.controller.js:108-124 | 400 exactly when no user has the username, success otherwise; the record of a user with that name without the password (every other field equal to the stored one), with both board-id lists and only the public boards marked as expanded |
| Users.GetProfileFindsTheUser | controllers/user.controller.js:109-110 | with unique usernames the lookup finds exactly the user holding the name |
| Users.GetProfileShowsOwnBoards | controllers/user.controller.js:113 | when public boards are among the owner's boards, the expanded list of a profile names only boards the user has |
| Users.GetProfileCarriesSecretBoardIds | controllers/user.controller.js:108-116 | a secret board of the user is not in the expanded public list, but its id is still on the profile's `boards` list |
| Users.CurrentUserIsOwnProfile | controllers/user.controller.js:87-124 | with unique usernames, getCurrentUser for a user and getProfile for its username return the same record, differing only in which board list is expanded |
| Boards.NewBoard | controllers/board.controller.js:24-32 | a new board is created by the caller with no pins and trimmed title and description; category "Other" when omitted; tags and collaborators `[]` when omitted and the given lists otherwise; isSecret as given (false by default) |
| Boards.WithBoard | controllers/board.controller.js:34-41 | the owner's boards always gain the new id, its public boards exactly when the board is not secret, and public boards stay among boards |
| Boards.BoardTitleAccepted | routes/board.routes.js:15-21 | the route's check on a board title: present and at most 100 characters |
| Boards.CreateBoard | controllers/board.controller.js:7-49 | 400 for a title the route rejects, 401 without a user, a validation failure for a record the schema rejects (no write) or for an owner failing its validators on `save()`; success exactly otherwise, with the new record as reply; the board is stored whenever it passes its schema, and listed on the owner's boards (and public boards when not secret) exactly when the owner's save passes |
| Boards.CreateBoardKeepsPublicBoardsOwned | controllers/board.controller.js:34-41 | createBoard keeps every user's public boards among that user's boards |
| Boards.GetBoard | controllers/board.controller.js:51-75 | 401, then 404 for an unknown board, then 403 exactly when the board is secret and the caller is not its creator; success exactly otherwise, with the stored board |
| Boards.GetBoardAccess | controllers/board.controller.js:69-72 | the creator reads its own board; a collaborator who is not the creator is refused a secret one |
| Boards.GetBoardAsWritten | controllers/board.controller.js:59-72 | with `createdBy` populated before the comparison, every secret board is a 403, whoever asks, or a null dereference when its creator has no user record; success exactly for a public board |
| Boards.SecretBoardHiddenFromOwnerAsWritten | controllers/board.controller.js:62-72 | as written the creator of a secret board is refused it, while the id comparison admits the creator |
| Boards.UpdateBoard | controllers/board.controller.js:77-122 | 401, then 404, then 403 for anyone but the creator, with no write; success exactly for the creator; each field takes a truthy supplied value and keeps its current one otherwise, title and description passing through the trim setter either way; isSecret ends true iff it was true or true is supplied; only that board changes |
| Boards.UpdateBoardKeepsSecret | controllers/board.controller.js:107 | no update turns a secret board public |
| Boards.DeleteBoard | controllers/board.controller.js:124-145 | 401 without writes; an unknown id fails on the null record without writes and never yields 400; a known board is removed and then 403 is reported exactly when the caller did not create it, success exactly when it did; user lists are untouched |
| Boards.NonOwnerDeleteStillDeletes | controllers/board.controller.js:132-137 | a delete by someone other than the creator reports 403 and the board is gone |
| Boards.DeleteBoardLeavesDanglingIds | controllers/board.controller.js:132-145 | after a delete the owner's boards still name the deleted board |
| Invariants.PinListsKeepUserInvariant | controllers/pin.controller.js:36-37 | changing only a user's created and saved pin lists keeps the user-level invariants |
| Invariants.PinListsKeepOtherUserInvariants | controllers/pin.controller.js:133-134 | changing only pin lists keeps user validity, board ownership and unique keys |
| Invariants.FollowListsKeepOtherUserInvariants | controllers/user.controller.js:156-166 | changing only follow lists keeps user validity, board ownership and unique keys |
| Invariants.BoardListsKeepOtherUserInvariants | controllers/board.controller.js:34-41 | changing only board lists keeps user validity, the follow pairing and unique keys |
| Invariants.ValidPinsPut | models/pin.model.js:5-61 | storing a schema-valid pin keeps the pin map valid |
| Invariants.ValidBoardsPut | models/board.model.js:4-39 | storing a schema-valid board keeps the board map valid |
| Invariants.ValidCommentsPut | models/comment.model.js:4-9 | storing a schema-valid comment keeps the comment map valid |
| Invariants.CreatePinKeepsInvariant | controllers/pin.controller.js:17-37 | createPin keeps the store invariant |
| Invariants.UpdatePinKeepsInvariant | controllers/pin.controller.js:70-79 | updatePin keeps the store invariant when the supplied fields are within the schema bounds |
| Invariants.UpdatePinStoresInvalidTitle | controllers/pin.controller.js:70-79 | updatePin runs no validator: an over-long title is stored and the store is no longer valid |
| Invariants.DeletePinKeepsInvariant | controllers/pin.controller.js:89-98 | deletePin keeps the store invariant |
| Invariants.SavePinKeepsInvariant | controllers/pin.controller.js:100-140 | savePin keeps the store invariant |
| Invariants.CreateCommentKeepsInvariant | controllers/pin.controller.js:142-180 | createComment keeps the store invariant |
| Invariants.ReplyCommentKeepsInvariant | controllers/pin.controller.js:182-227 | replyComment keeps the store invariant |
| Invariants.LikePinKeepsInvariant | controllers/pin.controller.js:243-272 | likePin keeps the store invariant |
| Invariants.LikeCommentKeepsInvariant | controllers/pin.controller.js:274-303 | likeComment keeps the store invariant |
| Invariants.RegisterUserKeepsInvariant | controllers/user.controller.js:7-38 | registerUser keeps the store invariant |
| Invariants.FollowUserKeepsInvariant | controllers/user.controller.js:129-169 | followUser between distinct users keeps the store invariant (on a valid store both saves pass) |
| Invariants.CreateBoardKeepsInvariant | controllers/board.controller.js:7-49 | createBoard keeps the store invariant |
| Invariants.WithBoardKeepsUserInvariant | controllers/board.controller.js:34-41 | listing a new board on its owner's boards (and public boards) keeps every user invariant |
| Invariants.UpdateBoardKeepsInvariant | controllers/board.controller.js:101-115 | updateBoard keeps the store invariant when the supplied fields are within the schema bounds |
| Invariants.DeleteBoardKeepsInvariant | controllers/board.controller.js:124-145 | deleteBoard keeps the store invariant (dangling ids are allowed by it) |
| Invariants.SecretBoardStaysOnProfile | controllers/board.controller.js:101-114 | after updateBoard makes a public board secret, the owner's profile still expands it as a public board |
| Scenarios.FollowStep | controllers/user.controller.js:156-160 | two valid users with empty follow lists: alice's follow of bob replies "following" and writes [bob] and [alice] |
| Scenarios.UnfollowStep | controllers/user.controller.js:161-167 | following again replies "not following" and gives back the starting store |
| Scenarios.LikeThenUnlike | controllers/pin.controller.js:261-270 | a valid pin with no likes: a like gives [alice], a second like gives [] |

The store invariant (`Invariants.StoreInvariant`) bundles five conditions:

- every record satisfies its schema predicate (`Schema.ValidUser`,
  `ValidPin`, `ValidBoard`, `ValidComment`): it passes the validators and
  its text fields are as the setters leave them (trimmed, lower-cased
  email);
- the follow lists are paired and duplicate-free, and point at stored
  users;
- public boards are among the owner's boards;
- emails are unique;
- usernames are unique.

The schema predicates state the field constraints of
models/user.model.js:5-45, models/pin.model.js:5-39,
models/board.model.js:4-39 and models/comment.model.js:4-21. Their
defaults and enums are constants in `Schema`.

## Findings

| source | as written | input that shows it | evidently intended | confidence | as-written member | corrected member |
|---|---|---|---|---|---|---|
| controllers/board.controller.js:59-72 | `createdBy` is populated, so `board.createdBy.toString()` renders the whole user document and never equals `user._id.toString()` | a secret board requested by its own creator | the creator may read its secret board; only others get 403 | medium, not executed | Boards.GetBoardAsWritten (with Boards.SecretBoardHiddenFromOwnerAsWritten) | Boards.GetBoard (with Boards.GetBoardAccess) |

## Left out

- Process bootstrap, database connection, media storage configuration, and the Express route wiring and middleware order are not modelled. The caller id stands for what the authentication middleware supplies.
- Login, password hashing and token issuing are foreign calls (bcrypt, jsonwebtoken). The password hash is a parameter of `Users.RegisterUser`, assumed non-empty.
- Read-side joins (`populate`, `select`) and the list reads getPins, getSavedPins, getCreatedPins and getPin return data without changing the store, and are not modelled. getCurrentUser and getProfile are modelled with both board-id lists and a tag (`Users.BoardList`) naming the list that `populate` expands into board records. The expansion itself, and `populate` dropping ids whose record is gone, are not modelled.
- Races between concurrent requests are not modelled: each handler runs alone on the store. Within a handler, the creates and `save()`s happen in source order, and a failed one keeps the earlier writes.
- Uniqueness of email and username is a database index, not a validator, so it is not part of the `save()` checks. The model checks it only at registration, as the handler does.
- Self-follow is excluded by a precondition of `Users.FollowUser`. Its outcome depends on how the database saves two in-memory copies of one document.
- The createPin handler copies `filename` and `filetype` from the upload, while the pin schema requires `fileid` and `fileurl`. The model treats the file descriptor as an opaque (fileid, fileurl, filetype) triple from the upload collaborator and validates it against the schema. As written, the handler's sub-document has no `fileid` or `fileurl`, both required by models/pin.model.js:16-23, so every createPin by a known caller fails validation and writes nothing (`Pins.CreatePinAsWrittenRejected`); the rest of the model takes the descriptor as the upload supplies it.
- Type casting of request values is not modelled. Examples are a string "true" for `isSecret`, malformed ids, and non-string titles. An id that cannot be cast makes the lookups throw; the model has no such input.
- Timestamps are not modelled.
- Users.RegistrationAccepted: the route's `isEmail` check is stood in for by the schema's `^\S+@\S+\.\S+$` expression.
- Users.RegisterUser: the email lookup is assumed to lower-case its query value like the schema's setter.
- Text.LowerChar: lower-cases ASCII letters only; JavaScript's `toLowerCase` also maps other Unicode letters.
- String lengths count Unicode scalar values, while JavaScript counts UTF-16 code units. The two differ only for characters outside the Basic Multilingual Plane.
- Users.GetProfile: a ghost function. It picks some user with the requested name, as `findOne` does; only with unique usernames is that user determined (`Users.GetProfileFindsTheUser`).
- Invariants.UpdatePinKeepsInvariant and Invariants.UpdateBoardKeepsInvariant assume the supplied fields are within bounds, because the update query runs no validators.
- The create-time "Invalid pin data" (controllers/pin.controller.js:42-43), "Invalid comment data" (:177-178), "Invalid reply data" (:224-225) and "Invalid board data" (controllers/board.controller.js:46-47) branches are not modelled: they test the result of a `create` that either stores the record or rejects it, never returning nothing. The same holds for "Failed to update board" (controllers/board.controller.js:118-120), whose board was found just before. The update-time "Invalid pin data" (controllers/pin.controller.js:84-85) is modelled: `Pins.UpdatePin` answers 400 for an unknown pin id.

=== FILE: boards.dfy ===
/**
 * The board handlers: create a board, and the access gates of get, update
 * and delete.
 */
module Boards {
  import opened Options
  import opened Text
  import opened Schema
  import opened Store

  /** The body of a create-board request; an empty string stands for an omitted field. */
  datatype BoardInput = BoardInput(
    title: string,
    description: string,
    category: string,
    tags: Option<seq<string>>,
    collaborators: Option<seq<UserId>>,
    isSecret: bool)

  /** The route's check on a board title: present and at most 100 characters. */
  predicate BoardTitleAccepted(title: string) {
    title != "" && |title| <= MaxTitleLength
  }

  /** The board record `createBoard` hands to the store. */
  function NewBoard(caller: UserId, input: BoardInput): (b: Board)
    ensures b.createdBy == caller && b.pins == [] && b.isSecret == input.isSecret
    ensures b.title == Trim(input.title) && b.description == Trim(input.description)
    ensures input.category == "" ==> b.category == DefaultCategory
    ensures input.category != "" ==> b.category == input.category
    ensures input.tags.None? ==> b.tags == []
    ensures input.tags.Some? ==> b.tags == input.tags.value
    ensures input.collaborators.None? ==> b.collaborators == []
    ensures input.collaborators.Some? ==> b.collaborators == input.collaborators.value
  {
    Board(Trim(input.title), Trim(input.description), caller, [],
          OrDefault(input.category, DefaultCategory), input.tags.GetOr([]),
          input.collaborators.GetOr([]), input.isSecret)
  }

  /**
   * The owner's record after creating board `id`: the id goes to the end of
   * its boards, and to the end of its public boards exactly when the board is
   * not secret. Every public board stays one of the owner's boards.
   */
  function WithBoard(u: User, id: BoardId, isSecret: bool): (u': User)
    ensures u' == u.(boards := u'.boards, publicBoards := u'.publicBoards)
    ensures u'.boards == u.boards + [id]
    ensures isSecret ==> u'.publicBoards == u.publicBoards
    ensures !isSecret ==> u'.publicBoards == u.publicBoards + [id]
    ensures (forall b :: b in u.publicBoards ==> b in u.boards) ==> (forall b :: b in u'.publicBoards ==> b in u'.boards)
  {
    if isSecret then u.(boards := u.boards + [id])
    else u.(boards := u.boards + [id], publicBoards := u.publicBoards + [id])
  }

  /**
   * createBoard: 400 for a title the route rejects, 401 without a user, then
   * schema validation of the new board, after which it is stored. The new id
   * then goes to the end of the owner's boards, and to the end of the owner's
   * public boards exactly when the board is not secret, by a `save()` of the
   * owner; when that fails validation the board stays stored but unlisted.
   */
  function CreateBoard(s: State, caller: UserId, id: BoardId, input: BoardInput): (r: Response<Board>)
    requires id !in s.boards
    ensures r.result == Err(BadRequest) <==> !BoardTitleAccepted(input.title)
    ensures r.result == Err(Unauthorized) <==> BoardTitleAccepted(input.title) && caller !in s.users
    ensures r.result == Err(ValidationFailed) <==>
      BoardTitleAccepted(input.title) && caller in s.users
      && (!ValidBoard(NewBoard(caller, input)) || !UserValidates(s.users[caller]))
    ensures r.result.Ok? <==>
      BoardTitleAccepted(input.title) && caller in s.users
      && ValidBoard(NewBoard(caller, input)) && UserValidates(s.users[caller])
    ensures r.result.Ok? ==> r.result.value == NewBoard(caller, input)
    ensures !(BoardTitleAccepted(input.title) && caller in s.users && ValidBoard(NewBoard(caller, input))) ==>
      r.state == s
    ensures BoardTitleAccepted(input.title) && caller in s.users && ValidBoard(NewBoard(caller, input)) ==>
      && var u := s.users[caller];
      && r.state.boards == s.boards[id := NewBoard(caller, input)]
      && r.state.users == (if UserValidates(u) then s.users[caller := WithBoard(u, id, input.isSecret)] else s.users)
      && r.state.pins == s.pins && r.state.comments == s.comments
  {
    if !BoardTitleAccepted(input.title) then Response(s, Err(BadRequest))
    else if caller !in s.users then Response(s, Err(Unauthorized))
    else
      var b := NewBoard(caller, input);
      if !ValidBoard(b) then Response(s, Err(ValidationFailed))
      else
        var s1 := s.(boards := s.boards[id := b]);
        var u := s.users[caller];
        if !UserValidates(u) then Response(s1, Err(ValidationFailed))
        else Response(s1.(users := s.users[caller := WithBoard(u, id, input.isSecret)]), Ok(b))
  }

  /** Creating a board keeps every user's public boards among that user's boards. */
  lemma CreateBoardKeepsPublicBoardsOwned(s: State, caller: UserId, id: BoardId, input: BoardInput)
    requires id !in s.boards
    requires PublicBoardsOwned(s.users)
    ensures PublicBoardsOwned(CreateBoard(s, caller, id, input).state.users)
  {
    var r := CreateBoard(s, caller, id, input);
    if r.result.Ok? {
      var s' := r.state;
      forall v, b | v in s'.users && b in s'.users[v].publicBoards
        ensures b in s'.users[v].boards
      {
        if v == caller {
          assert forall x :: x in s.users[caller].publicBoards ==> x in s.users[caller].boards;
        }
      }
    }
  }

  /**
   * getBoard with the ownership test comparing ids: 401 without a user, 404
   * for an unknown board, 403 when the board is secret and the caller did not
   * create it. Collaborators get no exception.
   */
  function GetBoard(s: State, caller: UserId, id: BoardId): (r: Result<Board>)
    ensures r == Err(Unauthorized) <==> caller !in s.users
    ensures r == Err(NotFound) <==> caller in s.users && id !in s.boards
    ensures r == Err(Forbidden) <==>
      caller in s.users && id in s.boards && s.boards[id].isSecret && s.boards[id].createdBy != caller
    ensures r.Ok? <==>
      caller in s.users && id in s.boards && (!s.boards[id].isSecret || s.boards[id].createdBy == caller)
    ensures r.Ok? ==> id in s.boards && r.value == s.boards[id]
  {
    if caller !in s.users then Err(Unauthorized)
    else if id !in s.boards then Err(NotFound)
    else
      var b := s.boards[id];
      if b.isSecret && b.createdBy != caller then Err(Forbidden)
      else Ok(b)
  }

  /** The creator reads its own board, secret or not; a collaborator who is not the creator cannot read a secret one. */
  lemma GetBoardAccess(s: State, caller: UserId, id: BoardId)
    requires caller in s.users && id in s.boards
    ensures s.boards[id].createdBy == caller ==> GetBoard(s, caller, id) == Ok(s.boards[id])
    ensures s.boards[id].isSecret && s.boards[id].createdBy != caller && caller in s.boards[id].collaborators
            ==> GetBoard(s, caller, id) == Err(Forbidden)
  {
  }

  /**
   * What `toString()` yields on the two sides of the secret-board test: an
   * id gives its own text, while a populated reference gives the rendering of
   * the whole document, which is never an id's text.
   */
  datatype Rendered = IdText(id: UserId) | DocumentText(id: UserId)

  /**
   * getBoard as written: `createdBy` is populated before the test, so the
   * comparison is between a document rendering and the caller's id text and
   * always reports a difference.
   */
  function GetBoardAsWritten(s: State, caller: UserId, id: BoardId): (r: Result<Board>)
    ensures r == Err(Unauthorized) <==> caller !in s.users
    ensures r == Err(NotFound) <==> caller in s.users && id !in s.boards
    ensures r == Err(NullDereference) <==>
      caller in s.users && id in s.boards && s.boards[id].isSecret && s.boards[id].createdBy !in s.users
    ensures r == Err(Forbidden) <==>
      caller in s.users && id in s.boards && s.boards[id].isSecret && s.boards[id].createdBy in s.users
    ensures r.Ok? <==> caller in s.users && id in s.boards && !s.boards[id].isSecret
    ensures r.Ok? ==> id in s.boards && r.value == s.boards[id]
  {
    if caller !in s.users then Err(Unauthorized)
    else if id !in s.boards then Err(NotFound)
    else
      var b := s.boards[id];
      if b.isSecret && b.createdBy !in s.users then Err(NullDereference)
      else
      var creator := DocumentText(b.createdBy);
      if b.isSecret && creator != IdText(caller) then Err(Forbidden)
      else Ok(b)
  }

  /** As written, the creator of a secret board is refused its own board, where the id comparison lets the creator in. */
  lemma SecretBoardHiddenFromOwnerAsWritten(s: State, id: BoardId)
    requires id in s.boards && s.boards[id].isSecret && s.boards[id].createdBy in s.users
    ensures GetBoardAsWritten(s, s.boards[id].createdBy, id) == Err(Forbidden)
    ensures GetBoard(s, s.boards[id].createdBy, id) == Ok(s.boards[id])
  {
  }

  /** The body of an update-board request; empty strings, `None` and `Some(false)` leave a field as it is. */
  datatype BoardPatch = BoardPatch(
    title: string,
    description: string,
    category: string,
    tags: Option<seq<string>>,
    collaborators: Option<seq<UserId>>,
    isSecret: Option<bool>)

  /**
   * updateBoard: 401, then 404, then 403 for anyone but the creator, with no
   * write on any failure. Each field takes the supplied value when it is
   * truthy and keeps the current one otherwise, so a board can be made secret
   * but never public again. The owner's public boards are not adjusted.
   */
  function UpdateBoard(s: State, caller: UserId, id: BoardId, patch: BoardPatch): (r: Response<Board>)
    ensures r.result == Err(Unauthorized) <==> caller !in s.users
    ensures r.result == Err(NotFound) <==> caller in s.users && id !in s.boards
    ensures r.result == Err(Forbidden) <==> caller in s.users && id in s.boards && s.boards[id].createdBy != caller
    ensures r.result.Ok? <==> caller in s.users && id in s.boards && s.boards[id].createdBy == caller
    ensures r.result.Err? ==> r.state == s
    ensures r.result.Ok? ==>
      && id in s.boards
      && var b := s.boards[id];
      && var b' := r.result.value;
      && b.createdBy == caller
      && r.state == s.(boards := s.boards[id := b'])
      && b'.createdBy == b.createdBy && b'.pins == b.pins
      && (patch.title != "" ==> b'.title == Trim(patch.title))
      && (patch.title == "" ==> b'.title == Trim(b.title))
      && (patch.description != "" ==> b'.description == Trim(patch.description))
      && (patch.description == "" ==> b'.description == Trim(b.description))
      && (patch.category != "" ==> b'.category == patch.category)
      && (patch.category == "" ==> b'.category == b.category)
      && b'.tags == patch.tags.GetOr(b.tags)
      && b'.collaborators == patch.collaborators.GetOr(b.collaborators)
      && (b'.isSecret <==> b.isSecret || patch.isSecret == Some(true))
  {
    if caller !in s.users then Response(s, Err(Unauthorized))
    else if id !in s.boards then Response(s, Err(NotFound))
    else
      var b := s.boards[id];
      if b.createdBy != caller then Response(s, Err(Forbidden))
      else
        var b' := b.(title := Trim(OrDefault(patch.title, b.title)),
                     description := Trim(OrDefault(patch.description, b.description)),
                     category := OrDefault(patch.category, b.category),
                     tags := patch.tags.GetOr(b.tags),
                     collaborators := patch.collaborators.GetOr(b.collaborators),
                     isSecret := patch.isSecret == Some(true) || b.isSecret);
        Response(s.(boards := s.boards[id := b']), Ok(b'))
  }

  /** No update turns a secret board public. */
  lemma UpdateBoardKeepsSecret(s: State, caller: UserId, id: BoardId, patch: BoardPatch)
    requires id in s.boards && s.boards[id].isSecret
    ensures var r := UpdateBoard(s, caller, id, patch);
            id in r.state.boards && r.state.boards[id].isSecret
  {
  }

  /**
   * deleteBoard: 401 without a user. The board is deleted before ownership
   * is looked at, so a request from someone other than the creator still
   * deletes it and then reports 403. An unknown id makes the handler read a
   * field of the missing record. Owners' board lists are never adjusted.
   */
  function DeleteBoard(s: State, caller: UserId, id: BoardId): (r: Response<()>)
    ensures r.result == Err(Unauthorized) <==> caller !in s.users
    ensures r.result == Err(NullDereference) <==> caller in s.users && id !in s.boards
    ensures r.result == Err(Forbidden) <==> caller in s.users && id in s.boards && s.boards[id].createdBy != caller
    ensures r.result.Ok? <==> caller in s.users && id in s.boards && s.boards[id].createdBy == caller
    ensures r.result != Err(BadRequest)
    ensures caller !in s.users || id !in s.boards ==> r.state == s
    ensures caller in s.users && id in s.boards ==>
      && r.state.boards.Keys == s.boards.Keys - {id}
      && (forall b :: b in r.state.boards ==> r.state.boards[b] == s.boards[b])
      && r.state.users == s.users && r.state.pins == s.pins && r.state.comments == s.comments
  {
    if caller !in s.users then Response(s, Err(Unauthorized))
    else if id !in s.boards then Response(s, Err(NullDereference))
    else
      var b := s.boards[id];
      var s' := s.(boards := s.boards - {id});
      if b.createdBy != caller then Response(s', Err(Forbidden))
      else Response(s', Ok(()))
  }

  /** A refused delete by someone other than the creator has still removed the board. */
  lemma NonOwnerDeleteStillDeletes(s: State, caller: UserId, id: BoardId)
    requires caller in s.users && id in s.boards && s.boards[id].createdBy != caller
    ensures var r := DeleteBoard(s, caller, id);
            r.result == Err(Forbidden) && id !in r.state.boards
  {
  }

  /** After a delete the owner's board lists still name the deleted board. */
  lemma DeleteBoardLeavesDanglingIds(s: State, caller: UserId, id: BoardId)
    requires caller in s.users && id in s.boards
    requires id in s.users[caller].boards
    ensures var r := DeleteBoard(s, caller, id);
            id !in r.state.boards && id in r.state.users[caller].boards
  {
  }
}

=== FILE: invariants.dfy ===
/**
 * Store-wide invariants and which handlers keep them: every record satisfies
 * its schema, the follow lists are paired and duplicate-free, public boards
 * are among their owner's boards, and emails and usernames are unique.
 */
module Invariants {
  import opened Options
  import opened Text
  import opened Lists
  import opened Schema
  import opened Store
  import Pins
  import Users
  import Boards

  /** The invariants over the user map. */
  ghost predicate UserInvariant(users: map<UserId, User>) {
    ValidUsers(users) && SocialInvariant(users) && PublicBoardsOwned(users) && UniqueKeys(users)
  }

  /** The invariant of a consistent store. */
  ghost predicate StoreInvariant(s: State) {
    UserInvariant(s.users) && ValidPins(s.pins) && ValidBoards(s.boards) && ValidComments(s.comments)
  }

  /** Changing only a user's created and saved pin lists keeps the user invariants. */
  lemma {:induction false} PinListsKeepUserInvariant(users: map<UserId, User>, k: UserId, created: seq<PinId>, saved: seq<PinId>)
    requires k in users && UserInvariant(users)
    ensures UserInvariant(users[k := users[k].(createdPins := created, savedPins := saved)])
  {
    var users' := users[k := users[k].(createdPins := created, savedPins := saved)];
    assert users'.Keys == users.Keys;
    forall u | u in users'
      ensures users'[u] == users[u].(createdPins := users'[u].createdPins, savedPins := users'[u].savedPins)
    {
    }
    forall a, b | a in users' && b in users'
      ensures Follows(users', a, b) <==> FollowedBy(users', b, a)
    {
      assert Follows(users, a, b) <==> FollowedBy(users, b, a);
    }
    forall a | a in users'
      ensures && NoDups(users'[a].following) && NoDups(users'[a].followers)
              && (forall b :: b in users'[a].following ==> b in users')
              && (forall b :: b in users'[a].followers ==> b in users')
    {
      assert users'[a].following == users[a].following && users'[a].followers == users[a].followers;
    }
    PinListsKeepOtherUserInvariants(users, users');
  }

  /** Changing only pin lists keeps user validity, board ownership and unique keys. */
  lemma PinListsKeepOtherUserInvariants(users: map<UserId, User>, users': map<UserId, User>)
    requires users'.Keys == users.Keys
    requires forall u :: u in users ==> users'[u] == users[u].(createdPins := users'[u].createdPins, savedPins := users'[u].savedPins)
    requires ValidUsers(users) && PublicBoardsOwned(users) && UniqueKeys(users)
    ensures ValidUsers(users') && PublicBoardsOwned(users') && UniqueKeys(users')
  {
    forall u, v | u in users' && v in users' && u != v
      ensures users'[u].email != users'[v].email && users'[u].username != users'[v].username
    {
      assert users[u].email != users[v].email;
    }
    forall u, b | u in users' && b in users'[u].publicBoards
      ensures b in users'[u].boards
    {
      assert b in users[u].publicBoards;
    }
    forall u | u in users' ensures ValidUser(users'[u]) {
      assert ValidUser(users[u]);
    }
  }

  /** Changing only follow lists keeps every user invariant other than the social one. */
  lemma {:induction false} FollowListsKeepOtherUserInvariants(users: map<UserId, User>, users': map<UserId, User>)
    requires users'.Keys == users.Keys
    requires forall u :: u in users ==> users'[u] == users[u].(following := users'[u].following, followers := users'[u].followers)
    requires ValidUsers(users) && PublicBoardsOwned(users) && UniqueKeys(users)
    ensures ValidUsers(users') && PublicBoardsOwned(users') && UniqueKeys(users')
  {
    forall u, v | u in users' && v in users' && u != v
      ensures users'[u].email != users'[v].email && users'[u].username != users'[v].username
    {
      assert users[u].email != users[v].email;
    }
    forall u, b | u in users' && b in users'[u].publicBoards
      ensures b in users'[u].boards
    {
      assert b in users[u].publicBoards;
    }
    forall u | u in users' ensures ValidUser(users'[u]) {
      assert ValidUser(users[u]);
    }
  }

  /** Changing only board lists keeps every user invariant other than board ownership. */
  lemma {:induction false} BoardListsKeepOtherUserInvariants(users: map<UserId, User>, users': map<UserId, User>)
    requires users'.Keys == users.Keys
    requires forall u :: u in users ==> users'[u] == users[u].(boards := users'[u].boards, publicBoards := users'[u].publicBoards)
    requires ValidUsers(users) && SocialInvariant(users) && UniqueKeys(users)
    ensures ValidUsers(users') && SocialInvariant(users') && UniqueKeys(users')
  {
    forall a, b | a in users' && b in users'
      ensures Follows(users', a, b) <==> FollowedBy(users', b, a)
    {
      assert Follows(users, a, b) <==> FollowedBy(users, b, a);
    }
    forall a | a in users'
      ensures && NoDups(users'[a].following) && NoDups(users'[a].followers)
              && (forall b :: b in users'[a].following ==> b in users')
              && (forall b :: b in users'[a].followers ==> b in users')
    {
      assert users'[a].following == users[a].following;
    }
    forall u, v | u in users' && v in users' && u != v
      ensures users'[u].email != users'[v].email && users'[u].username != users'[v].username
    {
      assert users[u].email != users[v].email;
    }
    forall u | u in users' ensures ValidUser(users'[u]) {
      assert ValidUser(users[u]);
    }
  }

  lemma ValidPinsPut(pins: map<PinId, Pin>, k: PinId, p: Pin)
    requires ValidPins(pins) && ValidPin(p)
    ensures ValidPins(pins[k := p])
  {
  }

  lemma ValidBoardsPut(boards: map<BoardId, Board>, k: BoardId, b: Board)
    requires ValidBoards(boards) && ValidBoard(b)
    ensures ValidBoards(boards[k := b])
  {
  }

  lemma ValidCommentsPut(comments: map<CommentId, Comment>, k: CommentId, c: Comment)
    requires ValidComments(comments) && ValidComment(c)
    ensures ValidComments(comments[k := c])
  {
  }

  lemma CreatePinKeepsInvariant(s: State, caller: UserId, id: PinId, input: Pins.PinInput)
    requires id !in s.pins && StoreInvariant(s)
    ensures StoreInvariant(Pins.CreatePin(s, caller, id, input).state)
  {
    var r := Pins.CreatePin(s, caller, id, input);
    if r.result.Ok? {
      var u := s.users[caller];
      PinListsKeepUserInvariant(s.users, caller, u.createdPins + [id], u.savedPins);
      assert r.state.users == s.users[caller := u.(createdPins := u.createdPins + [id], savedPins := u.savedPins)];
      ValidPinsPut(s.pins, id, r.result.value);
    }
  }

  /** The fields an update-pin request supplies are within the schema's bounds. */
  predicate PinPatchWithinBounds(patch: Pins.PinPatch) {
    && |Trim(patch.title)| <= MaxTitleLength
    && |Trim(patch.description)| <= MaxDescriptionLength
    && ValidCategory(OrDefault(patch.category, DefaultCategory))
  }

  /**
   * updatePin keeps the store valid when the supplied fields are within
   * bounds; the update itself runs no validator, so nothing else guarantees it.
   */
  lemma UpdatePinKeepsInvariant(s: State, id: PinId, patch: Pins.PinPatch)
    requires StoreInvariant(s) && PinPatchWithinBounds(patch)
    ensures StoreInvariant(Pins.UpdatePin(s, id, patch).state)
  {
    var r := Pins.UpdatePin(s, id, patch);
    if r.result.Ok? {
      assert ValidPin(s.pins[id]);
      assert ValidPin(r.result.value);
    }
  }

  /** updatePin runs no validator: an over-long title is stored as given. */
  lemma UpdatePinStoresInvalidTitle(s: State, id: PinId, patch: Pins.PinPatch)
    requires id in s.pins && |Trim(patch.title)| > MaxTitleLength
    ensures var r := Pins.UpdatePin(s, id, patch);
            r.result.Ok? && !ValidPin(r.state.pins[id]) && !ValidStore(r.state)
  {
  }

  lemma DeletePinKeepsInvariant(s: State, id: PinId)
    requires StoreInvariant(s)
    ensures StoreInvariant(Pins.DeletePin(s, id).state)
  {
  }

  lemma SavePinKeepsInvariant(s: State, caller: UserId, id: PinId, board: Option<BoardId>)
    requires StoreInvariant(s)
    ensures StoreInvariant(Pins.SavePin(s, caller, id, board).state)
  {
    var r := Pins.SavePin(s, caller, id, board);
    if r.result.Ok? {
      var u := s.users[caller];
      PinListsKeepUserInvariant(s.users, caller, u.createdPins, u.savedPins + [id]);
      assert r.state.users == s.users[caller := u.(createdPins := u.createdPins, savedPins := u.savedPins + [id])];
      if board.Some? {
        assert ValidBoard(s.boards[board.value]);
      }
    }
  }

  lemma CreateCommentKeepsInvariant(s: State, caller: UserId, pin: PinId, id: CommentId, text: string, image: string)
    requires id !in s.comments && StoreInvariant(s)
    ensures StoreInvariant(Pins.CreateComment(s, caller, pin, id, text, image).state)
  {
    var r := Pins.CreateComment(s, caller, pin, id, text, image);
    if r.result.Ok? {
      var p := s.pins[pin];
      assert ValidPin(p);
      ValidPinsPut(s.pins, pin, p.(comments := p.comments + [id]));
      ValidCommentsPut(s.comments, id, r.result.value);
      assert r.state.users == s.users && r.state.boards == s.boards;
    }
  }

  lemma ReplyCommentKeepsInvariant(s: State, caller: UserId, pin: PinId, parent: CommentId, id: CommentId,
                                   text: string, image: string)
    requires id !in s.comments && StoreInvariant(s)
    ensures StoreInvariant(Pins.ReplyComment(s, caller, pin, parent, id, text, image).state)
  {
    var r := Pins.ReplyComment(s, caller, pin, parent, id, text, image);
    if r.result.Ok? {
      var q := s.comments[parent];
      assert ValidComment(q);
      var comments1 := s.comments[parent := q.(replies := q.replies + [id])];
      ValidCommentsPut(s.comments, parent, q.(replies := q.replies + [id]));
      ValidCommentsPut(comments1, id, r.result.value);
      assert r.state.comments == comments1[id := r.result.value];
    }
  }

  lemma LikePinKeepsInvariant(s: State, caller: UserId, id: PinId)
    requires StoreInvariant(s)
    ensures StoreInvariant(Pins.LikePin(s, caller, id).state)
  {
    var r := Pins.LikePin(s, caller, id);
    if r.result.Ok? {
      assert ValidPin(s.pins[id]);
    }
  }

  lemma LikeCommentKeepsInvariant(s: State, caller: UserId, id: CommentId)
    requires StoreInvariant(s)
    ensures StoreInvariant(Pins.LikeComment(s, caller, id).state)
  {
    var r := Pins.LikeComment(s, caller, id);
    if r.result.Ok? {
      assert ValidComment(s.comments[id]);
    }
  }

  lemma RegisterUserKeepsInvariant(s: State, id: UserId, req: Users.Registration, hash: string)
    requires id !in s.users && hash != "" && StoreInvariant(s)
    ensures StoreInvariant(Users.RegisterUser(s, id, req, hash).state)
  {
    var r := Users.RegisterUser(s, id, req, hash);
    Users.RegisterKeepsUniqueKeys(s, id, req, hash);
    Users.RegisterKeepsSocialInvariant(s, id, req, hash);
    if r.result.Ok? {
      var users' := r.state.users;
      forall u, b | u in users' && b in users'[u].publicBoards
        ensures b in users'[u].boards
      {
        assert b in s.users[u].publicBoards;
      }
      forall u | u in users' ensures ValidUser(users'[u]) {
        if u != id {
          assert ValidUser(s.users[u]);
        }
      }
    }
  }

  lemma FollowUserKeepsInvariant(s: State, caller: UserId, target: UserId)
    requires caller != target && StoreInvariant(s)
    ensures StoreInvariant(Users.FollowUser(s, caller, target).state)
  {
    var r := Users.FollowUser(s, caller, target);
    if r.result.Ok? {
      Users.FollowKeepsSocialInvariant(s, caller, target);
      var users' := r.state.users;
      forall u | u in s.users
        ensures users'[u] == s.users[u].(following := users'[u].following, followers := users'[u].followers)
      {
      }
      FollowListsKeepOtherUserInvariants(s.users, users');
    }
  }

  lemma CreateBoardKeepsInvariant(s: State, caller: UserId, id: BoardId, input: Boards.BoardInput)
    requires id !in s.boards && StoreInvariant(s)
    ensures StoreInvariant(Boards.CreateBoard(s, caller, id, input).state)
  {
    var r := Boards.CreateBoard(s, caller, id, input);
    if r.result.Ok? {
      WithBoardKeepsUserInvariant(s.users, caller, id, input.isSecret);
      ValidBoardsPut(s.boards, id, r.result.value);
    }
  }

  /** Listing a new board on its owner keeps the user invariants. */
  lemma WithBoardKeepsUserInvariant(users: map<UserId, User>, caller: UserId, id: BoardId, isSecret: bool)
    requires caller in users && UserInvariant(users)
    ensures UserInvariant(users[caller := Boards.WithBoard(users[caller], id, isSecret)])
  {
    var u' := Boards.WithBoard(users[caller], id, isSecret);
    var users' := users[caller := u'];
    assert users'.Keys == users.Keys;
    forall v | v in users
      ensures users'[v] == users[v].(boards := users'[v].boards, publicBoards := users'[v].publicBoards)
    {
      if v == caller {
        assert users'[v] == u';
      } else {
        assert users'[v] == users[v];
      }
    }
    BoardListsKeepOtherUserInvariants(users, users');
    forall v, b | v in users' && b in users'[v].publicBoards
      ensures b in users'[v].boards
    {
      if v == caller {
        assert forall x :: x in users[caller].publicBoards ==> x in users[caller].boards;
      } else {
        assert b in users[v].publicBoards;
      }
    }
  }

  /** The fields an update-board request supplies keep a board within the schema's bounds. */
  predicate BoardPatchWithinBounds(patch: Boards.BoardPatch) {
    && (patch.title == "" || (Trim(patch.title) != "" && |Trim(patch.title)| <= MaxTitleLength))
    && |Trim(patch.description)| <= MaxDescriptionLength
    && (patch.category == "" || ValidCategory(patch.category))
  }

  lemma UpdateBoardKeepsInvariant(s: State, caller: UserId, id: BoardId, patch: Boards.BoardPatch)
    requires StoreInvariant(s) && BoardPatchWithinBounds(patch)
    ensures StoreInvariant(Boards.UpdateBoard(s, caller, id, patch).state)
  {
    var r := Boards.UpdateBoard(s, caller, id, patch);
    if r.result.Ok? {
      var b := s.boards[id];
      assert ValidBoard(b);
      var b' := r.result.value;
      if patch.title != "" {
        assert b'.title == Trim(patch.title);
      } else {
        TrimOfTrimmed(b.title);
        assert b'.title == b.title;
      }
      if patch.description != "" {
        assert b'.description == Trim(patch.description);
      } else {
        TrimOfTrimmed(b.description);
        assert b'.description == b.description;
      }
      assert ValidBoard(b');
      ValidBoardsPut(s.boards, id, b');
      assert r.state == s.(boards := s.boards[id := b']);
    }
  }

  lemma DeleteBoardKeepsInvariant(s: State, caller: UserId, id: BoardId)
    requires StoreInvariant(s)
    ensures StoreInvariant(Boards.DeleteBoard(s, caller, id).state)
  {
  }

  /**
   * Making a public board secret through updateBoard leaves its id on the
   * owner's public boards, so the owner's profile still lists a board that is
   * now secret.
   */
  lemma SecretBoardStaysOnProfile(s: State, owner: UserId, id: BoardId, patch: Boards.BoardPatch)
    requires UniqueKeys(s.users)
    requires owner in s.users && id in s.boards && s.boards[id].createdBy == owner
    requires id in s.users[owner].publicBoards
    requires patch.isSecret == Some(true)
    ensures var s' := Boards.UpdateBoard(s, owner, id, patch).state;
            var p := Users.GetProfile(s', s.users[owner].username);
            && s'.boards[id].isSecret
            && p.Ok? && p.value.expanded == Users.PublicBoards && id in p.value.publicBoards
  {
    var s' := Boards.UpdateBoard(s, owner, id, patch).state;
    assert s'.users == s.users;
    Users.GetProfileFindsTheUser(s', owner);
  }
}

=== FILE: lists.dfy ===
/**
 * The array idioms the controllers use on id lists: `findIndex` with id
 * equality, `splice(start, 1)`, `push`, and the like/unlike toggle built from
 * them, together with a recursive reference definition of "remove the first
 * occurrence" that the toggle is proved against.
 */
module Lists {

  /** No element occurs twice. */
  predicate NoDups<T(==)>(s: seq<T>) {
    forall i, j :: 0 <= i < j < |s| ==> s[i] != s[j]
  }

  /** `findIndex(item => item == x)`: the first position of `x`, or -1 when it is absent. */
  function IndexOf<T(==)>(s: seq<T>, x: T): (r: int)
    ensures r == -1 <==> x !in s
    ensures r != -1 ==> 0 <= r < |s| && s[r] == x && x !in s[..r]
  {
    if |s| == 0 then -1
    else if s[0] == x then 0
    else
      var k := IndexOf(s[1..], x);
      assert s[1..][..if k < 0 then 0 else k] == s[1..if k < 0 then 1 else k + 1];
      if k == -1 then -1 else k + 1
  }

  /**
   * `splice(start, 1)`: a negative start counts from the end (and is clamped
   * at 0), a start past the end removes nothing, otherwise exactly the element
   * at the resolved position is removed.
   */
  function SpliceOne<T>(s: seq<T>, start: int): (r: seq<T>)
    ensures 0 <= start < |s| ==> r == s[..start] + s[start + 1..]
    ensures start == -1 && |s| > 0 ==> r == s[..|s| - 1]
    ensures start >= |s| || |s| == 0 ==> r == s
    ensures |r| == if |s| == 0 || start >= |s| then |s| else |s| - 1
  {
    var k := if start < 0 then (if |s| + start < 0 then 0 else |s| + start)
             else (if start > |s| then |s| else start);
    if k < |s| then s[..k] + s[k + 1..] else s
  }

  /** Reference definition: the first occurrence of `x` removed, `s` itself when there is none. */
  function RemoveFirst<T(==)>(s: seq<T>, x: T): (r: seq<T>)
    ensures x in s ==> |r| == |s| - 1
    ensures x !in s ==> r == s
  {
    if s == [] then []
    else if s[0] == x then s[1..]
    else [s[0]] + RemoveFirst(s[1..], x)
  }

  /** Cutting out a first occurrence of `x` is the reference "remove the first occurrence". */
  lemma {:induction false} CutFirst<T>(s: seq<T>, x: T, i: int)
    requires 0 <= i < |s| && s[i] == x && x !in s[..i]
    ensures s[..i] + s[i + 1..] == RemoveFirst(s, x)
    decreases i
  {
    if i > 0 {
      var t := s[1..];
      assert s[0] in s[..i];
      assert t[..i - 1] == s[1..i];
      assert x !in t[..i - 1] by {
        assert forall y :: y in t[..i - 1] ==> y in s[..i];
      }
      CutFirst(t, x, i - 1);
      assert s[..i] == [s[0]] + t[..i - 1];
      assert s[i + 1..] == t[i..];
    }
  }

  /** Splicing at the `findIndex` position removes exactly the first occurrence. */
  lemma {:induction false} SpliceAtIndexOf<T>(s: seq<T>, x: T)
    requires x in s
    ensures SpliceOne(s, IndexOf(s, x)) == RemoveFirst(s, x)
  {
    var i := IndexOf(s, x);
    CutFirst(s, x, i);
    assert SpliceOne(s, i) == s[..i] + s[i + 1..];
  }

  /** With no duplicates, removing the first `x` removes `x` altogether and nothing else. */
  lemma {:induction false} RemoveFirstMembers<T>(s: seq<T>, x: T, y: T)
    requires NoDups(s)
    ensures y in RemoveFirst(s, x) <==> y in s && y != x
  {
    if s != [] {
      assert NoDups(s[1..]) by {
        forall i, j | 0 <= i < j < |s[1..]| ensures s[1..][i] != s[1..][j] {
          assert s[1..][i] == s[i + 1] && s[1..][j] == s[j + 1];
        }
      }
      if s[0] == x {
        assert x !in s[1..] by {
          forall k | 0 <= k < |s[1..]| ensures s[1..][k] != x {
            assert s[1..][k] == s[k + 1];
          }
        }
        assert s == [s[0]] + s[1..];
      } else {
        RemoveFirstMembers(s[1..], x, y);
        assert s == [s[0]] + s[1..];
      }
    }
  }

  /** Removing the first occurrence of anything keeps a list duplicate-free. */
  lemma {:induction false} RemoveFirstNoDups<T>(s: seq<T>, x: T)
    requires NoDups(s)
    ensures NoDups(RemoveFirst(s, x))
  {
    if s != [] {
      assert NoDups(s[1..]) by {
        forall i, j | 0 <= i < j < |s[1..]| ensures s[1..][i] != s[1..][j] {
          assert s[1..][i] == s[i + 1] && s[1..][j] == s[j + 1];
        }
      }
      if s[0] != x {
        RemoveFirstNoDups(s[1..], x);
        var t := RemoveFirst(s[1..], x);
        assert s[0] !in s[1..] by {
          forall k | 0 <= k < |s[1..]| ensures s[1..][k] != s[0] {
            assert s[1..][k] == s[k + 1];
          }
        }
        RemoveFirstMembers(s[1..], x, s[0]);
        forall i, j | 0 <= i < j < |[s[0]] + t| ensures ([s[0]] + t)[i] != ([s[0]] + t)[j] {
          if i == 0 {
            assert ([s[0]] + t)[j] == t[j - 1];
          } else {
            assert ([s[0]] + t)[i] == t[i - 1] && ([s[0]] + t)[j] == t[j - 1];
          }
        }
      }
    }
  }

  /** Appending an element that is absent and then removing its first occurrence gives the list back. */
  lemma {:induction false} RemoveFirstOfAppended<T>(s: seq<T>, x: T)
    requires x !in s
    ensures RemoveFirst(s + [x], x) == s
  {
    if s == [] {
      assert [] + [x] == [x];
    } else {
      assert (s + [x])[1..] == s[1..] + [x];
      RemoveFirstOfAppended(s[1..], x);
      assert s == [s[0]] + s[1..];
    }
  }

  /** Appending a fresh element keeps a list duplicate-free. */
  lemma AppendNoDups<T>(s: seq<T>, x: T)
    requires NoDups(s) && x !in s
    ensures NoDups(s + [x])
  {
    forall i, j | 0 <= i < j < |s + [x]| ensures (s + [x])[i] != (s + [x])[j] {
      if j == |s| {
        assert (s + [x])[i] == s[i];
      }
    }
  }

  /**
   * The like/unlike toggle as the handlers write it: `findIndex`, then `push`
   * when the index is -1 and `splice(index, 1)` otherwise.
   */
  function Toggle<T(==)>(s: seq<T>, x: T): (r: seq<T>)
    ensures x !in s ==> r == s + [x]
    ensures x in s ==> r == RemoveFirst(s, x)
  {
    var i := IndexOf(s, x);
    if i == -1 then s + [x]
    else
      SpliceAtIndexOf(s, x);
      SpliceOne(s, i)
  }

  /** On a duplicate-free list the toggle flips the actor's membership, keeps everyone else's, and stays duplicate-free. */
  lemma ToggleFlips<T>(s: seq<T>, x: T)
    requires NoDups(s)
    ensures x in Toggle(s, x) <==> x !in s
    ensures forall y :: y != x ==> (y in Toggle(s, x) <==> y in s)
    ensures NoDups(Toggle(s, x))
  {
    if x in s {
      forall y ensures y in Toggle(s, x) <==> y in s && y != x {
        RemoveFirstMembers(s, x, y);
      }
      RemoveFirstNoDups(s, x);
    } else {
      AppendNoDups(s, x);
    }
  }

  /** Toggling an absent actor twice gives back the very same list. */
  lemma ToggleTwiceFromAbsent<T>(s: seq<T>, x: T)
    requires x !in s
    ensures Toggle(Toggle(s, x), x) == s
  {
    RemoveFirstOfAppended(s, x);
  }

  /** Toggling twice on a duplicate-free list restores who is in it (though not, in general, the order). */
  lemma ToggleTwiceMembers<T>(s: seq<T>, x: T)
    requires NoDups(s)
    ensures forall y :: y in Toggle(Toggle(s, x), x) <==> y in s
    ensures NoDups(Toggle(Toggle(s, x), x))
  {
    ToggleFlips(s, x);
    ToggleFlips(Toggle(s, x), x);
  }

  /** Toggling a present actor twice moves it to the end: unlike then like reorders the list. */
  lemma ToggleTwiceReorders<T>(a: T, b: T)
    requires a != b
    ensures Toggle(Toggle([a, b], a), a) == [b, a]
  {
    assert Toggle([a, b], a) == [b];
    assert Toggle([b], a) == [b, a];
  }
}

=== FILE: options.dfy ===
/** Optional values, used for request fields a caller may omit. */
module Options {

  datatype Option<+T> = None | Some(value: T) {

    /** The carried value, or `default` when there is none (JavaScript's `x || default` on an array). */
    function GetOr(default: T): (r: T)
      ensures Some? ==> r == value
      ensures None? ==> r == default
    {
      match this
      case Some(v) => v
      case None => default
    }
  }
}

=== FILE: pins.dfy ===
/**
 * The pin handlers: create, update and delete a pin, save it (optionally into
 * a board), comment on it, reply to a comment, and the like toggles on pins
 * and comments.
 */
module Pins {
  import opened Options
  import opened Text
  import opened Lists
  import opened Schema
  import opened Store

  /** The body of a create-pin request; an empty string stands for an omitted field. */
  datatype PinInput = PinInput(
    title: string,
    description: string,
    file: FileDescriptor,
    category: string,
    tags: Option<seq<string>>)

  /** The body of an update-pin request. */
  datatype PinPatch = PinPatch(
    title: string,
    description: string,
    category: string,
    tags: Option<seq<string>>)

  /** The pin record `createPin` hands to the store: trimmed text, defaults for what is omitted, empty lists. */
  function NewPin(caller: UserId, input: PinInput): (p: Pin)
    ensures p.createdBy == caller && p.file == input.file
    ensures p.title == Trim(input.title) && p.description == Trim(input.description)
    ensures input.category == "" ==> p.category == DefaultCategory
    ensures input.category != "" ==> p.category == input.category
    ensures input.tags.None? ==> p.tags == []
    ensures input.tags.Some? ==> p.tags == input.tags.value
    ensures p.likes == [] && p.savedBy == [] && p.comments == []
  {
    Pin(Trim(input.title), Trim(input.description), input.file, caller,
        OrDefault(input.category, DefaultCategory), input.tags.GetOr([]), [], [], [])
  }

  /**
   * createPin: 401 when the caller has no user record; otherwise the schema
   * validates the new record and the pin is stored under the fresh id. The
   * id is then appended to the caller's created pins, which takes a `save()`
   * of the caller: when that fails validation the pin stays stored but
   * unlisted.
   */
  function CreatePin(s: State, caller: UserId, id: PinId, input: PinInput): (r: Response<Pin>)
    requires id !in s.pins
    ensures r.result == Err(Unauthorized) <==> caller !in s.users
    ensures r.result == Err(ValidationFailed) <==>
      caller in s.users && (!ValidPin(NewPin(caller, input)) || !UserValidates(s.users[caller]))
    ensures r.result.Ok? <==>
      caller in s.users && ValidPin(NewPin(caller, input)) && UserValidates(s.users[caller])
    ensures r.result.Ok? ==> r.result.value == NewPin(caller, input)
    ensures caller !in s.users || !ValidPin(NewPin(caller, input)) ==> r.state == s
    ensures caller in s.users && ValidPin(NewPin(caller, input)) ==>
      && var u := s.users[caller];
      && r.state.pins == s.pins[id := NewPin(caller, input)]
      && r.state.users == (if UserValidates(u) then s.users[caller := u.(createdPins := u.createdPins + [id])]
                           else s.users)
      && r.state.boards == s.boards && r.state.comments == s.comments
  {
    if caller !in s.users then Response(s, Err(Unauthorized))
    else
      var p := NewPin(caller, input);
      if !ValidPin(p) then Response(s, Err(ValidationFailed))
      else
        var s1 := s.(pins := s.pins[id := p]);
        var u := s.users[caller];
        if !UserValidates(u) then Response(s1, Err(ValidationFailed))
        else Response(s1.(users := s.users[caller := u.(createdPins := u.createdPins + [id])]), Ok(p))
  }

  /**
   * The file sub-document as the createPin handler builds it: only the
   * upload's name and type, so the schema's required `fileid` and `fileurl`
   * are absent (an empty string here).
   */
  function FileAsWritten(filetype: string): (f: FileDescriptor)
    ensures f.filetype == filetype
    ensures !ValidFile(f)
  {
    FileDescriptor("", "", filetype)
  }

  /** With the file built as the handler builds it, every createPin by a known caller fails validation and writes nothing. */
  lemma CreatePinAsWrittenRejected(s: State, caller: UserId, id: PinId, input: PinInput, filetype: string)
    requires id !in s.pins && caller in s.users
    ensures CreatePin(s, caller, id, input.(file := FileAsWritten(filetype))) == Response(s, Err(ValidationFailed))
  {
  }

  /**
   * updatePin: the four editable fields are replaced wholesale, an omitted one
   * being reset to its default. Nobody's identity or ownership is consulted,
   * and the update query runs no validators; an unknown pin is a 400.
   */
  function UpdatePin(s: State, id: PinId, patch: PinPatch): (r: Response<Pin>)
    ensures r.result == Err(BadRequest) <==> id !in s.pins
    ensures r.result.Ok? <==> id in s.pins
    ensures r.result.Err? ==> r.state == s
    ensures r.result.Ok? ==>
      && id in s.pins
      && var old_ := s.pins[id];
      && var p := r.result.value;
      && p.title == Trim(patch.title) && p.description == Trim(patch.description)
      && (patch.title == "" ==> p.title == "")
      && (patch.description == "" ==> p.description == "")
      && (patch.category == "" ==> p.category == DefaultCategory)
      && (patch.category != "" ==> p.category == patch.category)
      && (patch.tags.None? ==> p.tags == [])
      && (patch.tags.Some? ==> p.tags == patch.tags.value)
      && p.file == old_.file && p.createdBy == old_.createdBy
      && p.likes == old_.likes && p.savedBy == old_.savedBy && p.comments == old_.comments
      && r.state == s.(pins := s.pins[id := p])
  {
    if id !in s.pins then Response(s, Err(BadRequest))
    else
      var p := s.pins[id].(title := Trim(patch.title), description := Trim(patch.description),
                           category := OrDefault(patch.category, DefaultCategory),
                           tags := patch.tags.GetOr([]));
      Response(s.(pins := s.pins[id := p]), Ok(p))
  }

  /**
   * deletePin: removes the pin record and nothing else, so the ids in users'
   * created and saved lists and in boards' pin lists are left dangling.
   */
  function DeletePin(s: State, id: PinId): (r: Response<()>)
    ensures r.result == Err(BadRequest) <==> id !in s.pins
    ensures r.result.Ok? <==> id in s.pins
    ensures r.result.Err? ==> r.state == s
    ensures r.result.Ok? ==>
      && r.state.pins.Keys == s.pins.Keys - {id}
      && (forall p :: p in r.state.pins ==> r.state.pins[p] == s.pins[p])
      && r.state.users == s.users && r.state.boards == s.boards && r.state.comments == s.comments
  {
    if id !in s.pins then Response(s, Err(BadRequest))
    else Response(s.(pins := s.pins - {id}), Ok(()))
  }

  /** The board part of a save is rejected: a board was named that is missing or not among the caller's boards. */
  predicate BadBoard(s: State, caller: UserId, board: Option<BoardId>)
    requires caller in s.users
  {
    board.Some? && !(board.value in s.boards && board.value in s.users[caller].boards)
  }

  /** savePin gets past its checks: a user, the pin, not yet saved, and no bad board named. */
  predicate SaveAccepted(s: State, caller: UserId, id: PinId, board: Option<BoardId>) {
    && caller in s.users && id in s.pins
    && id !in s.users[caller].savedPins
    && !BadBoard(s, caller, board)
  }

  /** The named board's `save()` passes validation (trivially when no board is named). */
  predicate BoardSavePasses(s: State, caller: UserId, id: PinId, board: Option<BoardId>)
    requires SaveAccepted(s, caller, id, board)
  {
    board.None? || BoardValidates(s.boards[board.value])
  }

  /**
   * savePin: 401 without a user, 400 without the pin, 409 when the pin is
   * already saved, 400 when a named board is missing or not the caller's.
   * Otherwise three `save()`s follow, each of which may fail validation and
   * leaves the earlier ones written: the pin goes to the end of the named
   * board's pins, then to the end of the caller's saved pins, then the caller
   * to the end of the pin's savedBy.
   */
  function SavePin(s: State, caller: UserId, id: PinId, board: Option<BoardId>): (r: Response<()>)
    ensures r.result == Err(Unauthorized) <==> caller !in s.users
    ensures r.result == Err(Conflict) <==>
      caller in s.users && id in s.pins && id in s.users[caller].savedPins
    ensures r.result == Err(BadRequest) <==>
      caller in s.users && (id !in s.pins || (id !in s.users[caller].savedPins && BadBoard(s, caller, board)))
    ensures r.result == Err(ValidationFailed) <==>
      SaveAccepted(s, caller, id, board)
      && !(BoardSavePasses(s, caller, id, board) && UserValidates(s.users[caller]) && PinValidates(s.pins[id]))
    ensures r.result.Ok? <==>
      SaveAccepted(s, caller, id, board)
      && BoardSavePasses(s, caller, id, board) && UserValidates(s.users[caller]) && PinValidates(s.pins[id])
    ensures !SaveAccepted(s, caller, id, board) ==> r.state == s
    ensures SaveAccepted(s, caller, id, board) ==>
      && var u := s.users[caller];
      && var p := s.pins[id];
      && var boardOk := BoardSavePasses(s, caller, id, board);
      && var userOk := boardOk && UserValidates(u);
      && r.state.boards == (if board.Some? && boardOk
                            then s.boards[board.value := s.boards[board.value].(pins := s.boards[board.value].pins + [id])]
                            else s.boards)
      && r.state.users == (if userOk then s.users[caller := u.(savedPins := u.savedPins + [id])] else s.users)
      && r.state.pins == (if userOk && PinValidates(p) then s.pins[id := p.(savedBy := p.savedBy + [caller])]
                          else s.pins)
      && r.state.comments == s.comments
  {
    if caller !in s.users then Response(s, Err(Unauthorized))
    else if id !in s.pins then Response(s, Err(BadRequest))
    else
      var u := s.users[caller];
      var p := s.pins[id];
      if id in u.savedPins then Response(s, Err(Conflict))
      else if BadBoard(s, caller, board) then Response(s, Err(BadRequest))
      else if !BoardSavePasses(s, caller, id, board) then Response(s, Err(ValidationFailed))
      else
        var s1 := if board.None? then s
                  else s.(boards := s.boards[board.value := s.boards[board.value].(pins := s.boards[board.value].pins + [id])]);
        if !UserValidates(u) then Response(s1, Err(ValidationFailed))
        else
          var s2 := s1.(users := s.users[caller := u.(savedPins := u.savedPins + [id])]);
          if !PinValidates(p) then Response(s2, Err(ValidationFailed))
          else Response(s2.(pins := s.pins[id := p.(savedBy := p.savedBy + [caller])]), Ok(()))
  }

  /** Saving the same pin a second time is a 409 and writes nothing, whichever board the second request names. */
  lemma SaveTwiceConflicts(s: State, caller: UserId, id: PinId, board: Option<BoardId>, board2: Option<BoardId>)
    requires SavePin(s, caller, id, board).result.Ok?
    ensures var s1 := SavePin(s, caller, id, board).state;
            SavePin(s1, caller, id, board2) == Response(s1, Err(Conflict))
  {
  }

  /** The route's check on comment text: present and at most 300 characters. */
  predicate CommentTextAccepted(text: string) {
    text != "" && |text| <= MaxCommentLength
  }

  /** The comment record created for a comment or a reply on `pin`. */
  function NewComment(caller: UserId, pin: PinId, text: string, image: string): (c: Comment)
    ensures c.createdBy == caller && c.pin == pin && c.text == Trim(text)
    ensures image == "" ==> c.image == DefaultCommentImage
    ensures image != "" ==> c.image == image
    ensures c.likes == [] && c.replies == []
    ensures CommentTextAccepted(text) ==> (ValidComment(c) <==> Trim(text) != "")
  {
    Comment(Trim(text), caller, pin, OrDefault(image, DefaultCommentImage), [], [])
  }

  /** createComment and replyComment get as far as creating the comment: accepted text, a user, the pin, and text that does not trim to nothing. */
  predicate CommentCreated(s: State, caller: UserId, pin: PinId, text: string) {
    CommentTextAccepted(text) && caller in s.users && pin in s.pins && Trim(text) != ""
  }

  /**
   * createComment: 400 for text the route rejects, 401 without a user, 400
   * without the pin; text that trims to nothing fails the schema. Otherwise
   * the comment is stored, and its id appended to the pin's comments by a
   * `save()` of the pin; when that fails validation the comment stays stored
   * but unlisted.
   */
  function CreateComment(s: State, caller: UserId, pin: PinId, id: CommentId, text: string, image: string)
    : (r: Response<Comment>)
    requires id !in s.comments
    ensures r.result == Err(BadRequest) <==>
      !CommentTextAccepted(text) || (caller in s.users && pin !in s.pins)
    ensures r.result == Err(Unauthorized) <==> CommentTextAccepted(text) && caller !in s.users
    ensures r.result == Err(ValidationFailed) <==>
      CommentTextAccepted(text) && caller in s.users && pin in s.pins
      && (Trim(text) == "" || !PinValidates(s.pins[pin]))
    ensures r.result.Ok? <==> CommentCreated(s, caller, pin, text) && PinValidates(s.pins[pin])
    ensures r.result.Ok? ==> r.result.value == NewComment(caller, pin, text, image)
    ensures !CommentCreated(s, caller, pin, text) ==> r.state == s
    ensures CommentCreated(s, caller, pin, text) ==>
      && var q := s.pins[pin];
      && r.state.comments == s.comments[id := NewComment(caller, pin, text, image)]
      && r.state.pins == (if PinValidates(q) then s.pins[pin := q.(comments := q.comments + [id])] else s.pins)
      && r.state.users == s.users && r.state.boards == s.boards
  {
    if !CommentTextAccepted(text) then Response(s, Err(BadRequest))
    else if caller !in s.users then Response(s, Err(Unauthorized))
    else if pin !in s.pins then Response(s, Err(BadRequest))
    else
      var c := NewComment(caller, pin, text, image);
      if !ValidComment(c) then Response(s, Err(ValidationFailed))
      else
        var s1 := s.(comments := s.comments[id := c]);
        var q := s.pins[pin];
        if !PinValidates(q) then Response(s1, Err(ValidationFailed))
        else Response(s1.(pins := s.pins[pin := q.(comments := q.comments + [id])]), Ok(c))
  }

  /**
   * replyComment: the checks of createComment plus 400 when the parent comment
   * is missing. The reply is stored and its id appended to the parent's
   * replies only, by a `save()` of the parent: the pin's comment list is
   * untouched, and nothing checks that the parent belongs to the pin.
   */
  function ReplyComment(s: State, caller: UserId, pin: PinId, parent: CommentId, id: CommentId,
                        text: string, image: string): (r: Response<Comment>)
    requires id !in s.comments
    ensures r.result == Err(BadRequest) <==>
      !CommentTextAccepted(text) || (caller in s.users && (pin !in s.pins || parent !in s.comments))
    ensures r.result == Err(Unauthorized) <==> CommentTextAccepted(text) && caller !in s.users
    ensures r.result == Err(ValidationFailed) <==>
      CommentTextAccepted(text) && caller in s.users && pin in s.pins && parent in s.comments
      && (Trim(text) == "" || !CommentValidates(s.comments[parent]))
    ensures r.result.Ok? <==>
      CommentCreated(s, caller, pin, text) && parent in s.comments && CommentValidates(s.comments[parent])
    ensures r.result.Ok? ==> r.result.value == NewComment(caller, pin, text, image)
    ensures !(CommentCreated(s, caller, pin, text) && parent in s.comments) ==> r.state == s
    ensures CommentCreated(s, caller, pin, text) && parent in s.comments ==>
      && parent != id
      && var q := s.comments[parent];
      && var c := NewComment(caller, pin, text, image);
      && r.state.comments == (if CommentValidates(q) then s.comments[parent := q.(replies := q.replies + [id])][id := c]
                              else s.comments[id := c])
      && r.state.pins == s.pins && r.state.users == s.users && r.state.boards == s.boards
  {
    if !CommentTextAccepted(text) then Response(s, Err(BadRequest))
    else if caller !in s.users then Response(s, Err(Unauthorized))
    else if pin !in s.pins then Response(s, Err(BadRequest))
    else if parent !in s.comments then Response(s, Err(BadRequest))
    else
      var c := NewComment(caller, pin, text, image);
      if !ValidComment(c) then Response(s, Err(ValidationFailed))
      else
        var q := s.comments[parent];
        if !CommentValidates(q) then Response(s.(comments := s.comments[id := c]), Err(ValidationFailed))
        else Response(s.(comments := s.comments[parent := q.(replies := q.replies + [id])][id := c]), Ok(c))
  }

  /**
   * likePin: 401 without a user, 400 without the pin; otherwise the caller is
   * appended to the pin's likes when absent (reply `true`, "liked") and its
   * first occurrence removed when present (reply `false`, "disliked"), by a
   * `save()` of the pin that fails, writing nothing, when the stored pin no
   * longer passes its validators.
   */
  function LikePin(s: State, caller: UserId, id: PinId): (r: Response<bool>)
    ensures r.result == Err(Unauthorized) <==> caller !in s.users
    ensures r.result == Err(BadRequest) <==> caller in s.users && id !in s.pins
    ensures r.result == Err(ValidationFailed) <==> caller in s.users && id in s.pins && !PinValidates(s.pins[id])
    ensures r.result.Ok? <==> caller in s.users && id in s.pins && PinValidates(s.pins[id])
    ensures r.result.Err? ==> r.state == s
    ensures r.result.Ok? ==>
      && id in s.pins
      && var likes := s.pins[id].likes;
      && (r.result.value <==> caller !in likes)
      && id in r.state.pins
      && r.state == s.(pins := s.pins[id := s.pins[id].(likes := r.state.pins[id].likes)])
      && (caller !in likes ==> r.state.pins[id].likes == likes + [caller])
      && (caller in likes ==> r.state.pins[id].likes == RemoveFirst(likes, caller))
  {
    if caller !in s.users then Response(s, Err(Unauthorized))
    else if id !in s.pins then Response(s, Err(BadRequest))
    else
      var p := s.pins[id];
      var i := IndexOf(p.likes, caller);
      if !PinValidates(p) then Response(s, Err(ValidationFailed))
      else Response(s.(pins := s.pins[id := p.(likes := Toggle(p.likes, caller))]), Ok(i == -1))
  }

  /** likeComment: the same toggle on a comment's likes, with 400 for a missing comment. */
  function LikeComment(s: State, caller: UserId, id: CommentId): (r: Response<bool>)
    ensures r.result == Err(Unauthorized) <==> caller !in s.users
    ensures r.result == Err(BadRequest) <==> caller in s.users && id !in s.comments
    ensures r.result == Err(ValidationFailed) <==>
      caller in s.users && id in s.comments && !CommentValidates(s.comments[id])
    ensures r.result.Ok? <==> caller in s.users && id in s.comments && CommentValidates(s.comments[id])
    ensures r.result.Err? ==> r.state == s
    ensures r.result.Ok? ==>
      && id in s.comments
      && var likes := s.comments[id].likes;
      && (r.result.value <==> caller !in likes)
      && id in r.state.comments
      && r.state == s.(comments := s.comments[id := s.comments[id].(likes := r.state.comments[id].likes)])
      && (caller !in likes ==> r.state.comments[id].likes == likes + [caller])
      && (caller in likes ==> r.state.comments[id].likes == RemoveFirst(likes, caller))
  {
    if caller !in s.users then Response(s, Err(Unauthorized))
    else if id !in s.comments then Response(s, Err(BadRequest))
    else
      var c := s.comments[id];
      var i := IndexOf(c.likes, caller);
      if !CommentValidates(c) then Response(s, Err(ValidationFailed))
      else Response(s.(comments := s.comments[id := c.(likes := Toggle(c.likes, caller))]), Ok(i == -1))
  }

  /** Liking a valid pin flips the caller's membership in its likes when the list has no duplicates, and leaves everyone else's alone. */
  lemma LikePinFlips(s: State, caller: UserId, id: PinId)
    requires caller in s.users && id in s.pins && NoDups(s.pins[id].likes)
    requires PinValidates(s.pins[id])
    ensures var likes' := LikePin(s, caller, id).state.pins[id].likes;
            && (caller in likes' <==> caller !in s.pins[id].likes)
            && (forall v :: v != caller ==> (v in likes' <==> v in s.pins[id].likes))
            && NoDups(likes')
  {
    ToggleFlips(s.pins[id].likes, caller);
  }

  /** Like then unlike (starting from not liked) restores the state exactly, whether or not the saves pass. */
  lemma LikePinTwiceRestores(s: State, caller: UserId, id: PinId)
    requires caller in s.users && id in s.pins && caller !in s.pins[id].likes
    ensures LikePin(LikePin(s, caller, id).state, caller, id).state == s
  {
    if PinValidates(s.pins[id]) {
      ToggleTwiceFromAbsent(s.pins[id].likes, caller);
      var s1 := LikePin(s, caller, id).state;
      assert s1.pins[id].likes == s.pins[id].likes + [caller];
      assert s1.pins[id := s.pins[id]] == s.pins;
    }
  }

  /** Two likes in a row from any starting point restore who likes the pin (on a duplicate-free list). */
  lemma LikePinTwiceRestoresMembers(s: State, caller: UserId, id: PinId)
    requires caller in s.users && id in s.pins && NoDups(s.pins[id].likes)
    ensures var s2 := LikePin(LikePin(s, caller, id).state, caller, id).state;
            forall v :: v in s2.pins[id].likes <==> v in s.pins[id].likes
  {
    if PinValidates(s.pins[id]) {
      ToggleTwiceMembers(s.pins[id].likes, caller);
      var s1 := LikePin(s, caller, id).state;
      assert s1.pins[id].likes == Toggle(s.pins[id].likes, caller);
      assert PinValidates(s1.pins[id]);
    }
  }

  /** The comment toggle flips membership like the pin toggle. */
  lemma LikeCommentFlips(s: State, caller: UserId, id: CommentId)
    requires caller in s.users && id in s.comments && NoDups(s.comments[id].likes)
    requires CommentValidates(s.comments[id])
    ensures var likes' := LikeComment(s, caller, id).state.comments[id].likes;
            && (caller in likes' <==> caller !in s.comments[id].likes)
            && (forall v :: v != caller ==> (v in likes' <==> v in s.comments[id].likes))
            && NoDups(likes')
  {
    ToggleFlips(s.comments[id].likes, caller);
  }

  /** Like then unlike of a comment (starting from not liked) restores the state exactly, whether or not the saves pass. */
  lemma LikeCommentTwiceRestores(s: State, caller: UserId, id: CommentId)
    requires caller in s.users && id in s.comments && caller !in s.comments[id].likes
    ensures LikeComment(LikeComment(s, caller, id).state, caller, id).state == s
  {
    if CommentValidates(s.comments[id]) {
      ToggleTwiceFromAbsent(s.comments[id].likes, caller);
      var s1 := LikeComment(s, caller, id).state;
      assert s1.comments[id := s.comments[id]] == s.comments;
    }
  }
}

=== FILE: scenarios.dfy ===
/** Concrete runs of the handlers on small stores. */
module Scenarios {
  import opened Schema
  import opened Store
  import Lists
  import Pins
  import Users

  const Alice: UserId := UserId(1)
  const Bob: UserId := UserId(2)

  /** A user fresh from registration as far as following goes: nobody on either list. */
  predicate Unconnected(u: User) {
    UserValidates(u) && u.following == [] && u.followers == []
  }

  /** A store holding just alice and bob. */
  function TwoUsers(a: User, b: User): State {
    State(map[Alice := a, Bob := b], map[], map[], map[])
  }

  /** The store after alice follows bob: each list holds the other. */
  function AliceFollowsBob(a: User, b: User): State {
    TwoUsers(a.(following := [Bob]), b.(followers := [Alice]))
  }

  /** Alice follows bob: the reply says "following", and each side of the edge is written. */
  lemma FollowStep(a: User, b: User)
    requires Unconnected(a) && Unconnected(b)
    ensures Users.FollowUser(TwoUsers(a, b), Alice, Bob) == Response(AliceFollowsBob(a, b), Ok(true))
  {
    var r1 := Users.FollowUser(TwoUsers(a, b), Alice, Bob);
    assert r1.state.users[Alice].following == [] + [Bob];
    assert r1.state.users[Bob].followers == [] + [Alice];
    assert r1.state.users[Alice] == a.(following := [Bob]);
    assert r1.state.users[Bob] == b.(followers := [Alice]);
    assert r1.state.users == AliceFollowsBob(a, b).users;
  }

  /** Alice follows bob again: the reply says "not following", and the store is back to the start. */
  lemma UnfollowStep(a: User, b: User)
    requires Unconnected(a) && Unconnected(b)
    ensures Users.FollowUser(AliceFollowsBob(a, b), Alice, Bob) == Response(TwoUsers(a, b), Ok(false))
  {
    var r2 := Users.FollowUser(AliceFollowsBob(a, b), Alice, Bob);
    assert r2.state.users[Alice].following == Lists.RemoveFirst([Bob], Bob) == [];
    assert r2.state.users[Bob].followers == Lists.RemoveFirst([Alice], Alice) == [];
    assert r2.state.users == TwoUsers(a, b).users;
  }

  /** A valid pin nobody likes: alice likes it, then likes it again and the like is gone. */
  lemma LikeThenUnlike(a: User, b: User, file: FileDescriptor)
    requires ValidFile(file)
    ensures var p := Pin("", "", file, Bob, DefaultCategory, [], [], [], []);
            var s := TwoUsers(a, b).(pins := map[PinId(7) := p]);
            var r1 := Pins.LikePin(s, Alice, PinId(7));
            && r1.result == Ok(true) && r1.state.pins[PinId(7)].likes == [Alice]
            && var r2 := Pins.LikePin(r1.state, Alice, PinId(7));
            && r2.result == Ok(false) && r2.state.pins[PinId(7)].likes == []
  {
    var p := Pin("", "", file, Bob, DefaultCategory, [], [], [], []);
    var s := TwoUsers(a, b).(pins := map[PinId(7) := p]);
    var r1 := Pins.LikePin(s, Alice, PinId(7));
    assert r1.state.pins[PinId(7)].likes == [] + [Alice];
    var r2 := Pins.LikePin(r1.state, Alice, PinId(7));
    assert r2.state.pins[PinId(7)].likes == Lists.RemoveFirst([Alice], Alice);
  }
}

=== FILE: schema.dfy ===
/**
 * The four record types of the store (user, pin, board, comment), their
 * defaults, and the field constraints their schemas declare. Ids are opaque
 * and compared only for equality; each kind has its own id type.
 */
module Schema {
  import opened Options
  import opened Text

  datatype UserId = UserId(raw: nat)
  datatype PinId = PinId(raw: nat)
  datatype BoardId = BoardId(raw: nat)
  datatype CommentId = CommentId(raw: nat)

  /** The category enum shared by pins and boards. */
  const Categories: seq<string> := ["Art", "Photography", "DIY", "Food", "Fashion", "Travel", "Other"]
  const DefaultCategory: string := "Other"

  /** The media types a pin's file may have. */
  const FileTypes: seq<string> := ["image/jpeg", "image/png", "image/gif", "video/mp4", "audio/mpeg"]
  const DefaultFileType: string := "image/jpeg"

  const DefaultBio: string := " "
  const DefaultProfileImage: string := "default.jpg"
  const DefaultCommentImage: string := ""

  const MinNameLength: nat := 3
  const MaxBioLength: nat := 160
  const MaxTitleLength: nat := 100
  const MaxDescriptionLength: nat := 500
  const MaxCommentLength: nat := 300

  predicate ValidCategory(c: string) { c in Categories }

  /** The media descriptor a pin carries. */
  datatype FileDescriptor = FileDescriptor(fileid: string, fileurl: string, filetype: string)

  datatype User = User(
    firstname: string,
    surname: Option<string>,
    email: string,
    password: string,
    username: string,
    bio: string,
    profileImage: string,
    createdPins: seq<PinId>,
    savedPins: seq<PinId>,
    boards: seq<BoardId>,
    publicBoards: seq<BoardId>,
    following: seq<UserId>,
    followers: seq<UserId>)

  datatype Pin = Pin(
    title: string,
    description: string,
    file: FileDescriptor,
    createdBy: UserId,
    category: string,
    tags: seq<string>,
    likes: seq<UserId>,
    savedBy: seq<UserId>,
    comments: seq<CommentId>)

  datatype Board = Board(
    title: string,
    description: string,
    createdBy: UserId,
    pins: seq<PinId>,
    category: string,
    tags: seq<string>,
    collaborators: seq<UserId>,
    isSecret: bool)

  datatype Comment = Comment(
    text: string,
    createdBy: UserId,
    pin: PinId,
    image: string,
    likes: seq<UserId>,
    replies: seq<CommentId>)

  /** A username: word characters only, at least three of them. */
  predicate ValidUsername(name: string) {
    IsWord(name) && |name| >= MinNameLength
  }

  /** Required fields of the file descriptor are present and the type is one of the enum. */
  predicate ValidFile(f: FileDescriptor) {
    f.fileid != "" && f.fileurl != "" && f.filetype in FileTypes
  }

  /**
   * The validators of the user schema: a first name of at least three
   * characters, a surname of at least three when one is given, an email
   * matching `^\S+@\S+\.\S+$`, a password hash, a valid username and a bio of
   * at most 160 characters. They run on create and on every `save()`, over
   * every path of the document, loaded ones included.
   */
  predicate UserValidates(u: User) {
    && |u.firstname| >= MinNameLength
    && (u.surname.Some? ==> |u.surname.value| >= MinNameLength)
    && IsEmail(u.email)
    && u.password != ""
    && ValidUsername(u.username)
    && |u.bio| <= MaxBioLength
  }

  /** A user record as the schema stores it: it passes the validators and its email went through the lower-casing setter. */
  predicate ValidUser(u: User) {
    UserValidates(u) && u.email == Lower(u.email)
  }

  /** The validators of the pin schema: title and description within bounds, a complete file descriptor, a category of the enum. */
  predicate PinValidates(p: Pin) {
    && |p.title| <= MaxTitleLength
    && |p.description| <= MaxDescriptionLength
    && ValidFile(p.file)
    && ValidCategory(p.category)
  }

  /** A pin record as the schema stores it: it passes the validators and its text fields went through the trim setter. */
  predicate ValidPin(p: Pin) {
    PinValidates(p) && IsTrimmed(p.title) && IsTrimmed(p.description)
  }

  /** The validators of the board schema: a present title of at most 100 characters, a description of at most 500, a category of the enum. */
  predicate BoardValidates(b: Board) {
    && b.title != "" && |b.title| <= MaxTitleLength
    && |b.description| <= MaxDescriptionLength
    && ValidCategory(b.category)
  }

  /** A board record as the schema stores it: it passes the validators and its text fields went through the trim setter. */
  predicate ValidBoard(b: Board) {
    BoardValidates(b) && IsTrimmed(b.title) && IsTrimmed(b.description)
  }

  /** The validators of the comment schema: a present text of at most 300 characters. */
  predicate CommentValidates(c: Comment) {
    c.text != "" && |c.text| <= MaxCommentLength
  }

  /** A comment record as the schema stores it: it passes the validators and its text went through the trim setter. */
  predicate ValidComment(c: Comment) {
    CommentValidates(c) && IsTrimmed(c.text)
  }

  /**
   * The user record `registerUser` creates: only the name parts, the
   * lower-cased email, the password hash and the username are supplied, so
   * bio and image take their defaults and every list starts empty.
   */
  function NewUser(firstname: string, surname: Option<string>, email: string, hash: string, username: string): (u: User)
    ensures u.createdPins == [] && u.savedPins == [] && u.boards == [] && u.publicBoards == []
    ensures u.following == [] && u.followers == []
    ensures u.bio == DefaultBio && u.profileImage == DefaultProfileImage
    ensures u.email == Lower(email) && u.username == username && u.password == hash
    ensures (&& |firstname| >= MinNameLength && (surname.Some? ==> |surname.value| >= MinNameLength)
             && IsEmail(email) && hash != "" && ValidUsername(username)) ==> ValidUser(u)
  {
    LowerKeepsEmail(email);
    LowerIdempotent(email);
    User(firstname, surname, Lower(email), hash, username, DefaultBio, DefaultProfileImage, [], [], [], [], [], [])
  }

  /** The defaults the schemas declare satisfy the schemas' own constraints. */
  lemma DefaultsValid()
    ensures ValidCategory(DefaultCategory)
    ensures DefaultFileType in FileTypes
    ensures |DefaultBio| <= MaxBioLength
  {
  }
}

=== FILE: store.dfy ===
/**
 * The database as one immutable value: a map per record kind. Handlers are
 * pure functions from a state to a `Response` (the state after the request
 * together with the reply), or to a `Result` for handlers that only read.
 */
module Store {
  import opened Lists
  import opened Schema

  datatype State = State(
    users: map<UserId, User>,
    pins: map<PinId, Pin>,
    boards: map<BoardId, Board>,
    comments: map<CommentId, Comment>)

  /** The failures a handler reports, named after the status code it sets. */
  datatype Error =
    | BadRequest        // 400
    | Unauthorized      // 401
    | Forbidden         // 403
    | NotFound          // 404
    | Conflict          // 409
    | ValidationFailed  // the schema rejects a record on create or save; the handler sets no status
    | NullDereference   // the handler reads a field of a record the store did not return

  datatype Result<+T> = Ok(value: T) | Err(error: Error)

  /** The state a request leaves behind and what it replies. */
  datatype Response<+T> = Response(state: State, result: Result<T>)

  ghost predicate ValidUsers(users: map<UserId, User>) {
    forall u :: u in users ==> ValidUser(users[u])
  }

  ghost predicate ValidPins(pins: map<PinId, Pin>) {
    forall p :: p in pins ==> ValidPin(pins[p])
  }

  ghost predicate ValidBoards(boards: map<BoardId, Board>) {
    forall b :: b in boards ==> ValidBoard(boards[b])
  }

  ghost predicate ValidComments(comments: map<CommentId, Comment>) {
    forall c :: c in comments ==> ValidComment(comments[c])
  }

  /** Every stored record satisfies its schema. */
  ghost predicate ValidStore(s: State) {
    ValidUsers(s.users) && ValidPins(s.pins) && ValidBoards(s.boards) && ValidComments(s.comments)
  }

  /** `a` follows `b`: `b` is on `a`'s following list. */
  ghost predicate Follows(users: map<UserId, User>, a: UserId, b: UserId) {
    a in users && b in users[a].following
  }

  /** `a` is on `b`'s followers list. */
  ghost predicate FollowedBy(users: map<UserId, User>, b: UserId, a: UserId) {
    b in users && a in users[b].followers
  }

  /** The two denormalised sides of the follow relation agree for every pair of users. */
  ghost predicate Paired(users: map<UserId, User>) {
    forall a, b :: a in users && b in users ==> (Follows(users, a, b) <==> FollowedBy(users, b, a))
  }

  /** Follow lists mention only stored users and never twice. */
  ghost predicate FollowListsWellFormed(users: map<UserId, User>) {
    forall a :: a in users ==>
      && NoDups(users[a].following) && NoDups(users[a].followers)
      && (forall b :: b in users[a].following ==> b in users)
      && (forall b :: b in users[a].followers ==> b in users)
  }

  /** The social graph invariant the follow handler is meant to keep. */
  ghost predicate SocialInvariant(users: map<UserId, User>) {
    Paired(users) && FollowListsWellFormed(users)
  }

  /** Every user's public boards are among that user's boards. */
  ghost predicate PublicBoardsOwned(users: map<UserId, User>) {
    forall u, b :: u in users && b in users[u].publicBoards ==> b in users[u].boards
  }

  /** No two users share an email, and no two share a username (the schema's unique indexes). */
  ghost predicate UniqueKeys(users: map<UserId, User>) {
    forall u, v :: u in users && v in users && u != v ==>
      users[u].email != users[v].email && users[u].username != users[v].username
  }

  /** Some stored user has this (already lower-cased) email. */
  predicate EmailTaken(s: State, email: string) {
    exists u :: u in s.users && s.users[u].email == email
  }

  /** Some stored user has this username. */
  predicate UsernameTaken(s: State, name: string) {
    exists u :: u in s.users && s.users[u].username == name
  }
}

=== FILE: text.dfy ===
/**
 * The string operations the schemas apply to field values: JavaScript's
 * `String.prototype.trim` (the `trim: true` option), ASCII lower-casing (the
 * `lowercase: true` option on email) and the two regular expressions the user
 * schema matches against.
 */
module Text {

  /** The characters JavaScript treats as white space (`\s`, `trim`). */
  predicate IsSpace(c: char) {
    || c == ' ' || c == '\t' || c == '\n' || c == '\r'
    || c == '\U{0B}' || c == '\U{0C}' || c == '\U{A0}' || c == '\U{1680}'
    || ('\U{2000}' <= c <= '\U{200A}')
    || c == '\U{2028}' || c == '\U{2029}' || c == '\U{202F}' || c == '\U{205F}'
    || c == '\U{3000}' || c == '\U{FEFF}'
  }

  /** JavaScript's `s || d` on a string field: an empty (or omitted) value falls back to `d`. */
  function OrDefault(s: string, d: string): (r: string)
    ensures s == "" ==> r == d
    ensures s != "" ==> r == s
  {
    if s == "" then d else s
  }

  /** No leading and no trailing white space. */
  predicate IsTrimmed(s: string) {
    s == [] || (!IsSpace(s[0]) && !IsSpace(s[|s| - 1]))
  }

  /** `s` with its leading white space removed: a suffix of `s`. */
  function TrimStart(s: string): (r: string)
    ensures |r| <= |s| && r == s[|s| - |r|..]
    ensures forall k :: 0 <= k < |s| - |r| ==> IsSpace(s[k])
    ensures r == [] || !IsSpace(r[0])
  {
    if |s| > 0 && IsSpace(s[0]) then TrimStart(s[1..]) else s
  }

  /** `s` with its trailing white space removed: a prefix of `s`. */
  function TrimEnd(s: string): (r: string)
    ensures |r| <= |s| && r == s[..|r|]
    ensures forall k :: |r| <= k < |s| ==> IsSpace(s[k])
    ensures r == [] || !IsSpace(r[|r| - 1])
  {
    if |s| > 0 && IsSpace(s[|s| - 1]) then TrimEnd(s[..|s| - 1]) else s
  }

  /** `r` is the infix of `s` starting at `i`, and everything around it is white space. */
  predicate KeepsInfix(s: string, i: int, r: string) {
    && 0 <= i <= |s| - |r| && r == s[i..i + |r|]
    && (forall k :: 0 <= k < i ==> IsSpace(s[k]))
    && (forall k :: i + |r| <= k < |s| ==> IsSpace(s[k]))
  }

  /**
   * `String.prototype.trim`: the infix of `s` left after dropping the white
   * space at both ends. Everything dropped is white space and what is kept
   * starts and ends with a non-space character.
   */
  function Trim(s: string): (r: string)
    ensures IsTrimmed(r)
    ensures |r| <= |s|
    ensures exists i :: KeepsInfix(s, i, r)
  {
    var t := TrimStart(s);
    var r := TrimEnd(t);
    TrimKeepsInfix(s, t, r);
    r
  }

  /**
   * Dropping leading white space and then trailing white space keeps an
   * infix with only white space around it, and that infix starts and ends
   * with a non-space character.
   */
  lemma TrimKeepsInfix(s: string, t: string, r: string)
    requires |t| <= |s| && t == s[|s| - |t|..]
    requires forall k :: 0 <= k < |s| - |t| ==> IsSpace(s[k])
    requires t == [] || !IsSpace(t[0])
    requires |r| <= |t| && r == t[..|r|]
    requires forall k :: |r| <= k < |t| ==> IsSpace(t[k])
    requires r == [] || !IsSpace(r[|r| - 1])
    ensures KeepsInfix(s, |s| - |t|, r)
    ensures IsTrimmed(r) && |r| <= |s|
  {
    var i := |s| - |t|;
    assert r == s[i..i + |r|];
    forall k | i + |r| <= k < |s|
      ensures IsSpace(s[k])
    {
      assert s[k] == t[k - i];
    }
    if r != [] {
      assert r[0] == t[0];
    }
  }

  /** A string with nothing to trim is its own trim, so re-saving an unchanged trimmed field keeps it. */
  lemma {:induction false} TrimOfTrimmed(s: string)
    ensures IsTrimmed(s) ==> Trim(s) == s
  {
    if IsTrimmed(s) {
      assert TrimStart(s) == s;
      assert TrimEnd(s) == s;
    }
  }

  /** Trimming twice is trimming once: a stored trimmed value survives the setter again. */
  lemma TrimIdempotent(s: string)
    ensures Trim(Trim(s)) == Trim(s)
  {
    TrimOfTrimmed(Trim(s));
  }

  /** Lower-cases the ASCII letters and leaves every other character alone. */
  function LowerChar(c: char): (r: char)
    ensures 'A' <= c <= 'Z' ==> 'a' <= r <= 'z' && r as int - c as int == 32
    ensures !('A' <= c <= 'Z') ==> r == c
  {
    if 'A' <= c <= 'Z' then (c as int + 32) as char else c
  }

  /** The `lowercase: true` setter, ASCII letters only. */
  function Lower(s: string): (r: string)
    ensures |r| == |s|
    ensures forall k :: 0 <= k < |s| ==> r[k] == LowerChar(s[k])
  {
    seq(|s|, k requires 0 <= k < |s| => LowerChar(s[k]))
  }

  /** A lower-cased string has no upper-case ASCII letter left, so lower-casing it again changes nothing. */
  lemma LowerIdempotent(s: string)
    ensures forall k :: 0 <= k < |s| ==> !('A' <= Lower(s)[k] <= 'Z')
    ensures Lower(Lower(s)) == Lower(s)
  {
  }

  /** The character class `[a-zA-Z0-9_]`. */
  predicate IsWordChar(c: char) {
    ('a' <= c <= 'z') || ('A' <= c <= 'Z') || ('0' <= c <= '9') || c == '_'
  }

  /** The expression `^[a-zA-Z0-9_]+$`. */
  predicate IsWord(s: string) {
    |s| > 0 && forall k :: 0 <= k < |s| ==> IsWordChar(s[k])
  }

  /**
   * The expression `^\S+@\S+\.\S+$`: no white space anywhere, an `@` with at
   * least one character before it, then at least one character, a `.`, and at
   * least one character after that.
   */
  predicate IsEmail(s: string) {
    && (forall k :: 0 <= k < |s| ==> !IsSpace(s[k]))
    && exists at, dot :: 0 < at && at + 1 < dot && dot + 1 < |s| && s[at] == '@' && s[dot] == '.'
  }

  /** Lower-casing keeps an address well-formed, so the stored (lower-cased) email still matches. */
  lemma {:induction false} LowerKeepsEmail(s: string)
    ensures IsEmail(s) ==> IsEmail(Lower(s))
  {
    if !IsEmail(s) {
      return;
    }
    var at, dot :| 0 < at && at + 1 < dot && dot + 1 < |s| && s[at] == '@' && s[dot] == '.';
    var t := Lower(s);
    assert t[at] == '@' && t[dot] == '.';
    forall k | 0 <= k < |t|
      ensures !IsSpace(t[k])
    {
      assert !IsSpace(s[k]);
    }
  }
}

=== FILE: users.dfy ===
/**
 * The user handlers: registration (duplicate checks and the initial record),
 * the follow/unfollow toggle, and the two profile reads.
 */
module Users {
  import opened Options
  import opened Text
  import opened Lists
  import opened Schema
  import opened Store

  /** The body of a registration request. */
  datatype Registration = Registration(
    firstname: string,
    surname: Option<string>,
    email: string,
    password: string,
    username: string)

  /**
   * The route's checks on a registration: a well-formed email, a first name of
   * at least three characters, a username of at least three word characters
   * and a password of at least six characters.
   */
  predicate RegistrationAccepted(req: Registration) {
    && IsEmail(req.email)
    && |req.firstname| >= MinNameLength
    && ValidUsername(req.username)
    && |req.password| >= 6
  }

  /** The only schema constraint the route does not already enforce: a given surname has at least three characters. */
  predicate SurnameAccepted(req: Registration) {
    req.surname.Some? ==> |req.surname.value| >= MinNameLength
  }

  /**
   * registerUser: 400 for a body the route rejects, then 400 when the email is
   * taken, then 400 when the username is taken, all before anything is
   * written. Otherwise the new user holds only the name parts, the lower-cased
   * email, the password hash (computed outside the model) and the username.
   */
  function RegisterUser(s: State, id: UserId, req: Registration, hash: string): (r: Response<User>)
    requires id !in s.users
    requires hash != ""
    ensures r.result == Err(BadRequest) <==>
      !RegistrationAccepted(req) || EmailTaken(s, Lower(req.email)) || UsernameTaken(s, req.username)
    ensures r.result == Err(ValidationFailed) <==>
      RegistrationAccepted(req) && !EmailTaken(s, Lower(req.email)) && !UsernameTaken(s, req.username)
      && !SurnameAccepted(req)
    ensures r.result.Ok? <==>
      RegistrationAccepted(req) && !EmailTaken(s, Lower(req.email)) && !UsernameTaken(s, req.username)
      && SurnameAccepted(req)
    ensures r.result.Err? ==> r.state == s
    ensures r.result.Ok? ==>
      && var u := r.result.value;
      && ValidUser(u)
      && u.email == Lower(req.email) && u.username == req.username && u.password == hash
      && u.firstname == req.firstname && u.surname == req.surname
      && u.createdPins == [] && u.savedPins == [] && u.boards == [] && u.publicBoards == []
      && u.following == [] && u.followers == []
      && u.bio == DefaultBio && u.profileImage == DefaultProfileImage
      && u == NewUser(req.firstname, req.surname, req.email, hash, req.username)
      && r.state == s.(users := s.users[id := u])
  {
    if !RegistrationAccepted(req) then Response(s, Err(BadRequest))
    else if EmailTaken(s, Lower(req.email)) then Response(s, Err(BadRequest))
    else if UsernameTaken(s, req.username) then Response(s, Err(BadRequest))
    else if !SurnameAccepted(req) then Response(s, Err(ValidationFailed))
    else
      var u := NewUser(req.firstname, req.surname, req.email, hash, req.username);
      Response(s.(users := s.users[id := u]), Ok(u))
  }

  /** Registration keeps emails and usernames unique. */
  lemma RegisterKeepsUniqueKeys(s: State, id: UserId, req: Registration, hash: string)
    requires id !in s.users && hash != ""
    requires UniqueKeys(s.users)
    ensures UniqueKeys(RegisterUser(s, id, req, hash).state.users)
  {
    var r := RegisterUser(s, id, req, hash);
    if r.result.Ok? {
      var s' := r.state;
      forall u, v | u in s'.users && v in s'.users && u != v
        ensures s'.users[u].email != s'.users[v].email && s'.users[u].username != s'.users[v].username
      {
        if u == id {
          assert v in s.users;
        } else if v == id {
          assert u in s.users;
        }
      }
    }
  }

  /** Registration keeps the social graph invariant: the newcomer follows nobody and nobody follows it. */
  lemma RegisterKeepsSocialInvariant(s: State, id: UserId, req: Registration, hash: string)
    requires id !in s.users && hash != ""
    requires SocialInvariant(s.users)
    ensures SocialInvariant(RegisterUser(s, id, req, hash).state.users)
  {
    var r := RegisterUser(s, id, req, hash);
    if r.result.Ok? {
      var s' := r.state;
      forall a, b | a in s'.users && b in s'.users
        ensures Follows(s'.users, a, b) <==> FollowedBy(s'.users, b, a)
      {
        if a != id && b != id {
          assert Follows(s.users, a, b) <==> FollowedBy(s.users, b, a);
        } else if a == id && b != id {
          assert id !in s.users[b].followers;
        } else if b == id && a != id {
          assert id !in s.users[a].following;
        }
      }
    }
  }

  /**
   * followUser: 401 without a user, 400 without the target, with no write.
   * When the target is not on the caller's following list it is appended
   * there and the caller appended to the target's followers (reply `true`).
   * Otherwise the target's first occurrence leaves the caller's following
   * list, and the target's followers list loses the caller's first
   * occurrence; when the caller is not on it at all, `splice(-1, 1)` drops
   * the last follower instead. The two sides are written by two `save()`s,
   * the caller's first: when the caller's record fails validation nothing is
   * written, and when only the target's does, the caller's side stays written.
   */
  function FollowUser(s: State, caller: UserId, target: UserId): (r: Response<bool>)
    requires caller != target
    ensures r.result == Err(Unauthorized) <==> caller !in s.users
    ensures r.result == Err(BadRequest) <==> caller in s.users && target !in s.users
    ensures r.result == Err(ValidationFailed) <==>
      caller in s.users && target in s.users && !(UserValidates(s.users[caller]) && UserValidates(s.users[target]))
    ensures r.result.Ok? <==>
      caller in s.users && target in s.users && UserValidates(s.users[caller]) && UserValidates(s.users[target])
    ensures r.result.Ok? ==> (r.result.value <==> target !in s.users[caller].following)
    ensures !(caller in s.users && target in s.users && UserValidates(s.users[caller])) ==> r.state == s
    ensures caller in s.users && target in s.users && UserValidates(s.users[caller]) ==>
      && var u := s.users[caller];
      && var t := s.users[target];
      && r.state.users.Keys == s.users.Keys
      && r.state == s.(users := r.state.users)
      && (forall v :: v in s.users && v != caller && v != target ==> r.state.users[v] == s.users[v])
      && var u' := r.state.users[caller];
      && var t' := r.state.users[target];
      && u' == u.(following := u'.following)
      && t' == t.(followers := t'.followers)
      && (target !in u.following ==> u'.following == u.following + [target])
      && (target in u.following ==> u'.following == RemoveFirst(u.following, target))
      && (!UserValidates(t) ==> t'.followers == t.followers)
      && (UserValidates(t) && target !in u.following ==> t'.followers == t.followers + [caller])
      && (UserValidates(t) && target in u.following && caller in t.followers ==>
            t'.followers == RemoveFirst(t.followers, caller))
      && (UserValidates(t) && target in u.following && caller !in t.followers && t.followers != [] ==>
            t'.followers == t.followers[..|t.followers| - 1])
      && (UserValidates(t) && target in u.following && t.followers == [] ==> t'.followers == [])
  {
    if caller !in s.users then Response(s, Err(Unauthorized))
    else if target !in s.users then Response(s, Err(BadRequest))
    else
      var u := s.users[caller];
      var t := s.users[target];
      var following := target !in u.following;
      if !UserValidates(u) then Response(s, Err(ValidationFailed))
      else
        var s1 := s.(users := s.users[caller := WithFollowing(u, target)]);
        if !UserValidates(t) then Response(s1, Err(ValidationFailed))
        else Response(s1.(users := s1.users[target := WithFollowers(t, caller, following)]), Ok(following))
  }

  /** The caller's record after its side of followUser: the target toggled on its following list. */
  function WithFollowing(u: User, target: UserId): (u': User)
    ensures u' == u.(following := u'.following)
    ensures target !in u.following ==> u'.following == u.following + [target]
    ensures target in u.following ==> u'.following == RemoveFirst(u.following, target)
  {
    u.(following := Toggle(u.following, target))
  }

  /** The target's record after its side of followUser. */
  function WithFollowers(t: User, caller: UserId, follow: bool): (t': User)
    ensures t' == t.(followers := t'.followers)
    ensures t'.followers == FollowersAfter(t.followers, caller, follow)
  {
    t.(followers := FollowersAfter(t.followers, caller, follow))
  }

  /**
   * The target's side of followUser: a follow appends the caller; an
   * unfollow splices at the caller's `findIndex` position, which is the last
   * follower when the caller is missing.
   */
  function FollowersAfter(followers: seq<UserId>, caller: UserId, follow: bool): (r: seq<UserId>)
    ensures follow ==> r == followers + [caller]
    ensures !follow && caller in followers ==> r == RemoveFirst(followers, caller)
    ensures !follow && caller !in followers && followers != [] ==> r == followers[..|followers| - 1]
    ensures !follow && followers == [] ==> r == []
  {
    var userIndex := IndexOf(followers, caller);
    if follow then followers + [caller]
    else
      if caller in followers then SpliceAtIndexOf(followers, caller); SpliceOne(followers, userIndex)
      else SpliceOne(followers, userIndex)
  }

  /** Both sides of a follow as one toggle: the target on the caller's following list, the caller on the target's followers. */
  function PairedToggle(s: State, caller: UserId, target: UserId): (s': State)
    requires caller != target && caller in s.users && target in s.users
    ensures s'.users.Keys == s.users.Keys
  {
    var u := s.users[caller];
    var t := s.users[target];
    s.(users := s.users[caller := u.(following := Toggle(u.following, target))]
                       [target := t.(followers := Toggle(t.followers, caller))])
  }

  /** On a store whose follow lists are paired and duplicate-free, both sides of a follow that saves are the same toggle. */
  lemma FollowIsPairedToggle(s: State, caller: UserId, target: UserId)
    requires caller != target && caller in s.users && target in s.users
    requires UserValidates(s.users[caller]) && UserValidates(s.users[target])
    requires SocialInvariant(s.users)
    ensures FollowUser(s, caller, target).state == PairedToggle(s, caller, target)
  {
    assert Follows(s.users, caller, target) <==> FollowedBy(s.users, target, caller);
  }

  /** The paired toggle keeps the store paired and duplicate-free, and flips the one edge it touches. */
  lemma {:induction false} PairedToggleKeepsSocialInvariant(s: State, caller: UserId, target: UserId)
    requires caller != target && caller in s.users && target in s.users
    requires SocialInvariant(s.users)
    ensures var s' := PairedToggle(s, caller, target);
            && SocialInvariant(s'.users)
            && (Follows(s'.users, caller, target) <==> !Follows(s.users, caller, target))
  {
    var s' := PairedToggle(s, caller, target);
    var u := s.users[caller];
    var t := s.users[target];
    ToggleFlips(u.following, target);
    ToggleFlips(t.followers, caller);
    assert s'.users[caller].following == Toggle(u.following, target);
    assert s'.users[caller].followers == u.followers;
    assert s'.users[target].followers == Toggle(t.followers, caller);
    assert s'.users[target].following == t.following;
    forall a, b | a in s'.users && b in s'.users
      ensures Follows(s'.users, a, b) <==> FollowedBy(s'.users, b, a)
    {
      assert Follows(s.users, a, b) <==> FollowedBy(s.users, b, a);
    }
    forall a | a in s'.users
      ensures && NoDups(s'.users[a].following) && NoDups(s'.users[a].followers)
              && (forall b :: b in s'.users[a].following ==> b in s'.users)
              && (forall b :: b in s'.users[a].followers ==> b in s'.users)
    {
    }
  }

  /**
   * On a paired, duplicate-free store, a follow whose two saves pass flips
   * whether the caller follows the target and keeps the store paired and
   * duplicate-free.
   */
  lemma FollowKeepsSocialInvariant(s: State, caller: UserId, target: UserId)
    requires caller != target && caller in s.users && target in s.users
    requires UserValidates(s.users[caller]) && UserValidates(s.users[target])
    requires SocialInvariant(s.users)
    ensures var s' := FollowUser(s, caller, target).state;
            && SocialInvariant(s'.users)
            && (Follows(s'.users, caller, target) <==> !Follows(s.users, caller, target))
  {
    FollowIsPairedToggle(s, caller, target);
    PairedToggleKeepsSocialInvariant(s, caller, target);
  }

  /** The paired toggle applied twice, starting from not following, is the identity. */
  lemma PairedToggleTwice(s: State, caller: UserId, target: UserId)
    requires caller != target && caller in s.users && target in s.users
    requires target !in s.users[caller].following && caller !in s.users[target].followers
    ensures PairedToggle(PairedToggle(s, caller, target), caller, target) == s
  {
    var u := s.users[caller];
    var t := s.users[target];
    ToggleTwiceFromAbsent(u.following, target);
    ToggleTwiceFromAbsent(t.followers, caller);
    var s2 := PairedToggle(PairedToggle(s, caller, target), caller, target);
    assert s2.users[caller] == u;
    assert s2.users[target] == t;
    assert s2.users == s.users;
  }

  /**
   * Follow then unfollow, starting from not following, restores the state
   * exactly, whichever saves fail: a rejected caller writes nothing, and a
   * rejected target sees the caller's side toggled twice.
   */
  lemma FollowTwiceRestores(s: State, caller: UserId, target: UserId)
    requires caller != target && caller in s.users && target in s.users
    requires SocialInvariant(s.users)
    requires !Follows(s.users, caller, target)
    ensures FollowUser(FollowUser(s, caller, target).state, caller, target).state == s
  {
    var u := s.users[caller];
    if !UserValidates(u) {
    } else if !UserValidates(s.users[target]) {
      HalfFollowTwice(s, caller, target);
    } else {
      assert caller !in s.users[target].followers by {
        assert Follows(s.users, caller, target) <==> FollowedBy(s.users, target, caller);
      }
      var s1 := PairedToggle(s, caller, target);
      FollowIsPairedToggle(s, caller, target);
      PairedToggleKeepsSocialInvariant(s, caller, target);
      FollowIsPairedToggle(s1, caller, target);
      PairedToggleTwice(s, caller, target);
    }
  }

  /** The paired toggle applied twice restores who follows whom. */
  lemma PairedToggleTwiceGraph(s: State, caller: UserId, target: UserId)
    requires caller != target && caller in s.users && target in s.users
    requires SocialInvariant(s.users)
    ensures var s2 := PairedToggle(PairedToggle(s, caller, target), caller, target);
            forall a, b :: Follows(s2.users, a, b) <==> Follows(s.users, a, b)
  {
    var s2 := PairedToggle(PairedToggle(s, caller, target), caller, target);
    ToggleTwiceMembers(s.users[caller].following, target);
    assert s2.users[caller].following == Toggle(Toggle(s.users[caller].following, target), target);
    forall a, b ensures Follows(s2.users, a, b) <==> Follows(s.users, a, b) {
      if a != caller {
        assert a in s2.users ==> s2.users[a].following == s.users[a].following;
      }
    }
  }

  /** Two follows in a row, from any paired starting point, restore who follows whom, whichever saves fail. */
  lemma FollowTwiceRestoresGraph(s: State, caller: UserId, target: UserId)
    requires caller != target && caller in s.users && target in s.users
    requires SocialInvariant(s.users)
    ensures var s2 := FollowUser(FollowUser(s, caller, target).state, caller, target).state;
            forall a, b :: Follows(s2.users, a, b) <==> Follows(s.users, a, b)
  {
    var u := s.users[caller];
    if !UserValidates(u) {
    } else if !UserValidates(s.users[target]) {
      HalfFollowTwiceGraph(s, caller, target);
    } else {
      var s1 := PairedToggle(s, caller, target);
      FollowIsPairedToggle(s, caller, target);
      PairedToggleKeepsSocialInvariant(s, caller, target);
      FollowIsPairedToggle(s1, caller, target);
      PairedToggleTwiceGraph(s, caller, target);
    }
  }

  /** Two follows whose target save fails toggle only the caller's side, twice: from not following, nothing changes. */
  lemma HalfFollowTwice(s: State, caller: UserId, target: UserId)
    requires caller != target && caller in s.users && target in s.users
    requires UserValidates(s.users[caller]) && !UserValidates(s.users[target])
    requires target !in s.users[caller].following
    ensures FollowUser(FollowUser(s, caller, target).state, caller, target).state == s
  {
    var u := s.users[caller];
    ToggleTwiceFromAbsent(u.following, target);
    var s1 := FollowUser(s, caller, target).state;
    assert s1.users[caller] == u.(following := u.following + [target]);
    var s2 := FollowUser(s1, caller, target).state;
    assert s2.users[caller] == u;
    assert s2.users == s.users;
  }

  /** Two follows whose target save fails restore who follows whom, on a duplicate-free following list. */
  lemma HalfFollowTwiceGraph(s: State, caller: UserId, target: UserId)
    requires caller != target && caller in s.users && target in s.users
    requires UserValidates(s.users[caller]) && !UserValidates(s.users[target])
    requires NoDups(s.users[caller].following)
    ensures var s2 := FollowUser(FollowUser(s, caller, target).state, caller, target).state;
            forall a, b :: Follows(s2.users, a, b) <==> Follows(s.users, a, b)
  {
    var u := s.users[caller];
    var s2 := FollowUser(FollowUser(s, caller, target).state, caller, target).state;
    ToggleTwiceMembers(u.following, target);
    assert s2.users[caller].following == Toggle(Toggle(u.following, target), target);
    forall a, b ensures Follows(s2.users, a, b) <==> Follows(s.users, a, b) {
      if a != caller {
        assert a in s2.users ==> s2.users[a].following == s.users[a].following;
      }
    }
  }

  /**
   * The half-written follow: when the caller's save passes and the target's
   * fails, the caller's following list changes and the target's followers do
   * not, so a paired store stops being paired.
   */
  lemma FollowHalfWriteUnpairs(s: State, caller: UserId, target: UserId)
    requires caller != target && caller in s.users && target in s.users
    requires UserValidates(s.users[caller]) && !UserValidates(s.users[target])
    requires SocialInvariant(s.users)
    ensures var s' := FollowUser(s, caller, target).state;
            && (Follows(s'.users, caller, target) <==> !Follows(s.users, caller, target))
            && (FollowedBy(s'.users, target, caller) <==> FollowedBy(s.users, target, caller))
            && !Paired(s'.users)
  {
    var s' := FollowUser(s, caller, target).state;
    ToggleFlips(s.users[caller].following, target);
    assert s'.users[caller].following == Toggle(s.users[caller].following, target);
    assert Follows(s.users, caller, target) <==> FollowedBy(s.users, target, caller);
    assert !(Follows(s'.users, caller, target) <==> FollowedBy(s'.users, target, caller));
  }

  /**
   * The `splice(-1, 1)` case: when the caller follows the target but is
   * missing from the target's followers, unfollowing removes whoever is last
   * on that list. A third user who was that last follower loses the edge on
   * the followers side while still following the target, so the store is no
   * longer paired.
   */
  lemma UnfollowUnpairedDropsLastFollower(s: State, caller: UserId, target: UserId, other: UserId)
    requires caller != target && caller in s.users && target in s.users && other in s.users
    requires UserValidates(s.users[caller]) && UserValidates(s.users[target])
    requires target in s.users[caller].following
    requires caller !in s.users[target].followers
    requires NoDups(s.users[target].followers)
    requires s.users[target].followers != [] && s.users[target].followers[|s.users[target].followers| - 1] == other
    requires other != caller && other != target && target in s.users[other].following
    ensures var s' := FollowUser(s, caller, target).state;
            && Follows(s'.users, other, target) && !FollowedBy(s'.users, target, other)
            && !Paired(s'.users)
  {
    var s' := FollowUser(s, caller, target).state;
    var f := s.users[target].followers;
    assert s'.users[target].followers == f[..|f| - 1];
    assert other !in f[..|f| - 1];
    assert Follows(s'.users, other, target);
  }

  /** Which of the two board lists a profile read expands into board records; the other is returned as ids. */
  datatype BoardList = AllBoards | PublicBoards

  /** What the profile reads return: the user record without its password. */
  datatype Profile = Profile(
    id: UserId,
    firstname: string,
    surname: Option<string>,
    email: string,
    username: string,
    bio: string,
    profileImage: string,
    createdPins: seq<PinId>,
    savedPins: seq<PinId>,
    boards: seq<BoardId>,
    publicBoards: seq<BoardId>,
    following: seq<UserId>,
    followers: seq<UserId>,
    expanded: BoardList)

  /** The stored record `u` of user `id` as a profile read returns it: every field but the password. */
  function View(id: UserId, u: User, expanded: BoardList): Profile {
    Profile(id, u.firstname, u.surname, u.email, u.username, u.bio, u.profileImage,
            u.createdPins, u.savedPins, u.boards, u.publicBoards, u.following, u.followers, expanded)
  }

  /**
   * getCurrentUser: 404 for an unknown caller; otherwise the caller's record
   * without the password, both board lists included, with every board (secret
   * ones too) expanded.
   */
  function GetCurrentUser(s: State, caller: UserId): (r: Result<Profile>)
    ensures r == Err(NotFound) <==> caller !in s.users
    ensures r.Ok? <==> caller in s.users
    ensures r.Ok? ==>
      && caller in s.users
      && var u := s.users[caller];
      && r.value.id == caller && r.value.username == u.username && r.value.email == u.email
      && r.value.firstname == u.firstname && r.value.surname == u.surname
      && r.value.bio == u.bio && r.value.profileImage == u.profileImage
      && r.value.createdPins == u.createdPins && r.value.savedPins == u.savedPins
      && r.value.boards == u.boards && r.value.publicBoards == u.publicBoards
      && r.value.following == u.following && r.value.followers == u.followers
      && r.value.expanded == AllBoards
  {
    if caller !in s.users then Err(NotFound)
    else Ok(View(caller, s.users[caller], AllBoards))
  }

  /**
   * getProfile: looks a user up by username; 400 when there is none.
   * Otherwise the record without the password, with only the public boards
   * expanded; the `boards` list still carries the id of every board, secret
   * ones included.
   */
  ghost function GetProfile(s: State, name: string): (r: Result<Profile>)
    ensures r == Err(BadRequest) <==> !UsernameTaken(s, name)
    ensures r.Ok? <==> UsernameTaken(s, name)
    ensures r.Ok? ==>
      && var id := r.value.id;
      && id in s.users && s.users[id].username == name
      && r.value.username == name
      && r.value.boards == s.users[id].boards && r.value.publicBoards == s.users[id].publicBoards
      && r.value.email == s.users[id].email
      && r.value.firstname == s.users[id].firstname && r.value.surname == s.users[id].surname
      && r.value.bio == s.users[id].bio && r.value.profileImage == s.users[id].profileImage
      && r.value.createdPins == s.users[id].createdPins && r.value.savedPins == s.users[id].savedPins
      && r.value.following == s.users[id].following && r.value.followers == s.users[id].followers
      && r.value.expanded == PublicBoards
  {
    if !UsernameTaken(s, name) then Err(BadRequest)
    else
      var id :| id in s.users && s.users[id].username == name;
      Ok(View(id, s.users[id], PublicBoards))
  }

  /** With unique usernames, the profile found is that of the one user with the name. */
  lemma GetProfileFindsTheUser(s: State, id: UserId)
    requires UniqueKeys(s.users) && id in s.users
    ensures GetProfile(s, s.users[id].username).Ok?
    ensures GetProfile(s, s.users[id].username).value.id == id
  {
  }

  /** The expanded list of a profile names only boards its owner has, when every public board is one of the owner's boards. */
  lemma GetProfileShowsOwnBoards(s: State, name: string)
    requires PublicBoardsOwned(s.users)
    requires GetProfile(s, name).Ok?
    ensures var p := GetProfile(s, name).value;
            forall b :: b in p.publicBoards ==> b in s.users[p.id].boards
  {
  }

  /** A secret board (one of the owner's boards that is not public) is not expanded on the profile, but its id is still on it. */
  lemma GetProfileCarriesSecretBoardIds(s: State, id: UserId, board: BoardId)
    requires UniqueKeys(s.users) && id in s.users
    requires board in s.users[id].boards && board !in s.users[id].publicBoards
    ensures var p := GetProfile(s, s.users[id].username).value;
            && p.expanded == PublicBoards && board !in p.publicBoards
            && board in p.boards
  {
    GetProfileFindsTheUser(s, id);
  }

  /**
   * With unique usernames, the caller's own record and the caller's public
   * profile carry the same data; they differ only in which board list is
   * expanded.
   */
  lemma CurrentUserIsOwnProfile(s: State, id: UserId)
    requires UniqueKeys(s.users) && id in s.users
    ensures GetCurrentUser(s, id).Ok? && GetProfile(s, s.users[id].username).Ok?
    ensures GetCurrentUser(s, id).value == GetProfile(s, s.users[id].username).value.(expanded := AllBoards)
  {
    GetProfileFindsTheUser(s, id);
  }
}
